=== FILE: README.md ===
# Retail sales analysis: a verified model

This project models the analysis engine of `RetailSalesAnalyzer` in
`retail-sales-analysis.py`: the queries it answers over a table of sales
records, and the anomaly detector that adds a score column to that table.
Each record has a date, a store, a product type, a product name, a location
and an amount. The queries are:

- the overview: total, mean, count and date range of the sales;
- the per-store table and its top `n` stores;
- the struggling stores: per-store monthly sales, their mean and spread, and
  the stores at or below a percentile of the means;
- the five best and five worst product types;
- the monthly and quarterly sales trends;
- the per-location table;
- the anomaly detector: a z-score per sale within its (store, product type)
  group, and the sales that score above a threshold.

The pandas operations the source relies on are written out directly in Dafny:
`groupby` with `sum`, `mean`, `count`, `nunique` and sample `std`,
`nlargest`/`nsmallest`, the linear-interpolation `quantile`, and the `'M'` and
`'Q'` date groupers.

Modelling choices:

- Amounts are integers (cents), so every sum is exact.
- Means, variances and quantiles are `real`.
- Square roots are not taken. A standard deviation is kept as its square (the
  sample variance), and a z-score as its square. The test `score > z` becomes
  `z < 0 || score² > z²`. `Anomalies.ExceedsIsComparison` proves the two agree.
- Dates are Gregorian (year, month, day) values at day granularity.
- Category keys are strings ordered by code point. A `groupby` therefore lists
  its groups in ascending key order.
- `nlargest`/`nsmallest` keep the first of tied rows. Ties therefore go to the
  smaller key, and `Ranking.Precedes` breaks ties by key.
- The analyzer is a class, `Anomalies.RetailSalesAnalyzer`. It holds the sales
  table and the `sales_zscore` column. `detect_anomalies` assigns that column.
  Every other query is a pure function of the table.

Behaviour at the edges, as the code has it:

- `nlargest(n)` with `n <= 0` returns an empty table; the call is not rejected.
- The group `[10, 10, 10, 100]` has mean 32.5 and sample variance 2025 (std 45),
  so the sale of 100 scores exactly 1.5. The test is a strict `>`, so that sale
  is not flagged at threshold 1.5; it is flagged at 1.49 and not at 2.0.
  `Anomalies.OutlierExample` proves these numbers.
- An out-of-range percentile makes pandas' `quantile` raise. The model returns
  `Failure(PercentileOutOfRange)` instead.
- An empty table gives an empty list of struggling stores.
- The struggling threshold interpolates linearly between order statistics: the
  25th percentile of the means 100, 200 and 900 is 150, not 100.
  `Stores.StrugglingExample` proves that only the store at 100 is returned.

The monthly grouping inside `struggling_stores` (line 80) pairs a date grouper
with the categorical store column. This model keeps only (month, store) pairs
that have at least one sale. It does not add zero-sum rows for unobserved
pairs. The seasonal trends use a date grouper alone, which behaves like a
resample. They get one row per month (or quarter), from the first sale's period
to the last sale's, with 0 for periods without sales.

## Model

| member | source | states |
|---|---|---|
| Calendar.DaysInMonth | retail-sales-analysis.py:81 | a month has 28 to 31 days; February has 29 exactly in Gregorian leap years |
| Calendar.MonthEnd | retail-sales-analysis.py:81 | the `'M'` label of a date is the last day of its own month and year, on or after the date |
| Calendar.QuarterOf | retail-sales-analysis.py:140 | `dt.quarter` is in 1..4 and the month lies in 3q-2..3q |
| Calendar.QuarterEnd | retail-sales-analysis.py:136 | the `'Q'` label is the last day of month 3·quarter of the same year, on or after the date |
| Calendar.MonthEndAt | retail-sales-analysis.py:131 | the month with a given index ends on the last day of a month with that index |
| Calendar.QuarterEndAt | retail-sales-analysis.py:136 | the quarter with a given index ends on the last day of March, June, September or December, with that index |
| Calendar.MonthEndDetermined | retail-sales-analysis.py:131 | a last day of a month is the end of the month with its own index |
| Calendar.QuarterEndDetermined | retail-sales-analysis.py:136 | a last day of March, June, September or December is the end of the quarter with its own index |
| Calendar.MonthEndSameBucket | retail-sales-analysis.py:130-132 | two dates share a month label exactly when they have the same month index |
| Calendar.QuarterEndSameBucket | retail-sales-analysis.py:135-137 | two dates share a quarter label exactly when they have the same quarter index |
| Calendar.BucketIndexMonotone | retail-sales-analysis.py:130-137 | bucketing preserves date order, for months and quarters |
| StringOrder.StrLessTransitive | retail-sales-analysis.py:24-28 | the code-point order of category labels is transitive |
| StringOrder.StrLessTotal | retail-sales-analysis.py:24-28 | any two different labels are ordered one way or the other |
| StringOrder.StrLessIrreflexive | retail-sales-analysis.py:24-28 | no label precedes itself |
| StringOrder.InsertLabel | retail-sales-analysis.py:61-64 | inserting a label into a sorted key list keeps it strictly sorted and adds exactly that label |
| Grouping.Group | retail-sales-analysis.py:61-64 | a group is no longer than the table and every row in it has the group's key |
| Grouping.GroupMembers | retail-sales-analysis.py:61-64 | a group holds exactly the rows of the table with the group's key |
| Grouping.DistinctKeys | retail-sales-analysis.py:156 | `nunique`: each key once, every row's key present, every listed key occurs in a row |
| Grouping.SortedKeys | retail-sales-analysis.py:61-64 | the group keys are strictly sorted, each row's key is listed, and each listed key occurs |
| Grouping.GroupSumIsMaskedSum | retail-sales-analysis.py:61-64 | a group's sum of a column is the whole table's sum of that column masked to the group's key |
| Grouping.GroupOfGroup | retail-sales-analysis.py:80-83 | grouping a group by a finer key gives the same rows as grouping the whole table by that key |
| Grouping.GroupDistinct | retail-sales-analysis.py:80-83 | rows that a function tells apart in the table stay apart within any group |
| Grouping.NoDuplicatesCardinality | retail-sales-analysis.py:156 | a duplicate-free list has as many entries as its set of entries has members |
| Grouping.PartitionTotal | retail-sales-analysis.py:61-64 | over a duplicate-free key list covering every row, the per-group sums add up to the table's sum |
| Statistics.Mean | retail-sales-analysis.py:43 | the mean times the count is the sum |
| Statistics.SampleVariance | retail-sales-analysis.py:87 | squared `std`: defined exactly for two or more values, non-negative, zero exactly when every deviation from the mean is zero; its value is fixed by SampleVarianceValue |
| Statistics.SampleVarianceValue | retail-sales-analysis.py:87 | the N-1 denominator: the variance times (n - 1) is the sum of the squared distances of the values from their mean |
| Statistics.ZeroVarianceIffConstant | retail-sales-analysis.py:87 | two or more values have zero variance exactly when they are all equal |
| Statistics.SortAscending | retail-sales-analysis.py:94 | the order statistics: an ascending permutation of the values |
| Statistics.LowerIndex | retail-sales-analysis.py:94 | the interpolation position (k-1)·q lies between the chosen index and the next |
| Statistics.Interpolate | retail-sales-analysis.py:94 | the interpolated quantile lies between the two neighbouring order statistics, and between the smallest and largest value |
| Statistics.Quantile | retail-sales-analysis.py:94 | `Series.quantile(q)` lies between the smallest and the largest order statistic |
| Statistics.InterpolateAtIndex | retail-sales-analysis.py:94 | at a whole-number position (k-1)·q = j the result is the j-th order statistic |
| Statistics.InterpolateBetween | retail-sales-analysis.py:94 | at position j + f, 0 ≤ f < 1, the result is the point a fraction f of the way from the j-th to the (j+1)-th order statistic |
| Statistics.QuantileAtIndex | retail-sales-analysis.py:94 | `quantile(q)` with (k-1)·q = j is the j-th smallest value |
| Statistics.QuantileBetween | retail-sales-analysis.py:94 | `quantile(q)` with (k-1)·q = j + f is the linear interpolation between the j-th and (j+1)-th smallest values |
| Statistics.SortExample | retail-sales-analysis.py:94 | the order statistics of 900, 100, 200 are 100, 200, 900 |
| Statistics.QuantileExample | retail-sales-analysis.py:94 | of the values 900, 100, 200: `quantile(0.25)` = 150, `quantile(0.1)` = 120, `quantile(0.5)` = 200 |
| Statistics.AscendingBounds | retail-sales-analysis.py:94 | the smallest and largest order statistics are values of the data and bound all of them |
| Statistics.QuantileMonotone | retail-sales-analysis.py:94 | the quantile does not decrease as q grows |
| Statistics.QuantileExtremes | retail-sales-analysis.py:94 | quantile 0 is the smallest value and quantile 1 the largest, both taken from the data |
| Tables.Summarize | retail-sales-analysis.py:61-64 | a summary row carries its key; its `sum` is the table's amounts masked to the key, summed; its `count` is the number of records with the key, at least one |
| Tables.SummaryMean | retail-sales-analysis.py:62 | the `mean` column times the `count` column equals the `sum` column |
| Tables.Summaries | retail-sales-analysis.py:61-66 | one row per observed key, in sorted key order, each with count ≥ 1 |
| Tables.SummariesKeys | retail-sales-analysis.py:61-66 | the keys are strictly sorted (hence distinct), every record's key has a row, and every row is backed by a record |
| Tables.SummariesTotals | retail-sales-analysis.py:61-66 | the `total_sales` column sums to the table's total and the counts sum to the number of records |
| Ranking.PrecedesTransitive | retail-sales-analysis.py:67 | the ranking order (total, then key) is transitive, largest-first and smallest-first alike |
| Ranking.PrecedesTotal | retail-sales-analysis.py:67 | rows with different keys are always ranked one before the other |
| Ranking.PrecedesAsymmetric | retail-sales-analysis.py:67 | no two rows precede each other |
| Ranking.Rank | retail-sales-analysis.py:67 | sorting by the ranking order is a permutation of the table |
| Ranking.RankRanked | retail-sales-analysis.py:67 | on a table with distinct keys the sorted result is strictly ranked |
| Ranking.Take | retail-sales-analysis.py:67 | the row count of `nlargest(n)` is min(n, rows) and 0 for n ≤ 0 |
| Ranking.Select | retail-sales-analysis.py:67 | `nlargest`/`nsmallest`: min(n, rows) rows of the table, ranked, and each one ranked before every row left out |
| Ranking.RankPrefix | retail-sales-analysis.py:67 | the first k rows in rank order are rows of the table and each is ranked before every row left out |
| Ranking.SelectByTotal | retail-sales-analysis.py:67 | the selected rows are non-increasing (`nlargest`) or non-decreasing (`nsmallest`) by total, and no row left out has a better total than a selected one |
| Stores.StorePerformance | retail-sales-analysis.py:61-66 | one row per distinct store, covering every record's store |
| Stores.TopPerformingStores | retail-sales-analysis.py:67 | min(n, #stores) rows of the per-store table, non-increasing by total (ties by store id), and every omitted store ranks after every returned one: a smaller total, or an equal total and a larger store id |
| Stores.MonthlyRows | retail-sales-analysis.py:80-83 | one row per (month end, store) key, holding that pair's sum of sales |
| Stores.MonthlyStoreTable | retail-sales-analysis.py:80-83 | at most one row per record, no (month end, store) pair twice, and each row holds the sum of the sales of its pair |
| Stores.MonthlyStoreTableCovers | retail-sales-analysis.py:80-83 | every sale's (month end, store) pair has a row |
| Stores.MonthlyStoreTableObserved | retail-sales-analysis.py:80-83 | every row's (month end, store) pair is the pair of some record (observed pairs only) |
| Stores.PairWithinStore | retail-sales-analysis.py:80-83 | a store's records in pair k are all of pair k's records when k belongs to that store, and none otherwise |
| Stores.MonthlyRowsOfStore | retail-sales-analysis.py:80-86 | a store's monthly sums over a list of pairs equal the per-pair totals of that store's records |
| Stores.MonthlySumsOfStore | retail-sales-analysis.py:80-86 | a store's monthly sums add up to that store's total sales |
| Stores.MonthlyCountOfStore | retail-sales-analysis.py:80-86 | a store has exactly one monthly sum per distinct month end among its records |
| Stores.StoreMonthsListed | retail-sales-analysis.py:80-86 | the month ends of a store's monthly rows are exactly the month ends of its records |
| Stores.MonthlyStoreTableTotal | retail-sales-analysis.py:80-83 | the monthly sums add up to the total of all sales |
| Stores.VolatilityRows | retail-sales-analysis.py:86-89 | per store, the mean and the squared `std` of its monthly sums |
| Stores.StoreVolatilityTable | retail-sales-analysis.py:86-89 | one row per store, store ids strictly ascending |
| Stores.StoreVolatilityCovers | retail-sales-analysis.py:86-89 | every store with a sale has a volatility row |
| Stores.StoreVolatilityObserved | retail-sales-analysis.py:86-89 | every volatility row's store has a sale |
| Stores.AvgMonthlySales | retail-sales-analysis.py:94 | the `avg_monthly_sales` column, row by row |
| Stores.AtOrBelow | retail-sales-analysis.py:92-95 | the filter keeps exactly the rows whose mean is at or below the threshold |
| Stores.StrugglingThreshold | retail-sales-analysis.py:94 | the p/100 quantile of the means is at least one store's mean and at most another's |
| Stores.QuantileWithinMeans | retail-sales-analysis.py:94 | a quantile of the means lies between the smallest and the largest store mean |
| Stores.SelectStruggling | retail-sales-analysis.py:92-95 | fails exactly for a percentile outside [0, 100]; keeps exactly the stores whose mean is at or below the p/100 quantile of all means; empty on an empty table and non-empty otherwise |
| Stores.StrugglingStores | retail-sales-analysis.py:80-97 | fails exactly for an out-of-range percentile; otherwise returns rows of the per-store volatility table |
| Stores.StrugglingMonotone | retail-sales-analysis.py:92-95 | raising the percentile never drops a store |
| Stores.StrugglingAtHundred | retail-sales-analysis.py:92-95 | at p = 100 every store is returned |
| Stores.StrugglingAtZero | retail-sales-analysis.py:92-95 | at p = 0 exactly the stores with the minimum mean are returned |
| Stores.ExampleThresholds | retail-sales-analysis.py:94 | for store means 900, 100, 200 the threshold is 150 at p = 25 and 200 at p = 50 |
| Stores.StrugglingExample | retail-sales-analysis.py:92-95 | for store means 900, 100, 200: at p = 25 only the store at 100 is returned; at p = 50 the stores at 100 and 200 |
| Products.ProductPerformance | retail-sales-analysis.py:107-114 | one row per product type, covering every record's type |
| Products.TopProducts | retail-sales-analysis.py:117 | `nlargest(5)`: min(5, #types) rows, non-increasing by total, each ranked before every type left out |
| Products.BottomProducts | retail-sales-analysis.py:118 | `nsmallest(5)`: min(5, #types) rows, non-decreasing by total, each ranked before every type left out |
| Products.ProductPerformanceAnalysis | retail-sales-analysis.py:116-120 | the top list is the `nlargest(5)` selection and the bottom list the `nsmallest(5)` selection, both of min(5, #types) ≤ 5 rows, and a type only in the bottom list sold no more than any type in the top list |
| Overview.EarliestDate | retail-sales-analysis.py:46 | `date.min()`: a record's date, on or before every record's date |
| Overview.LatestDate | retail-sales-analysis.py:47 | `date.max()`: a record's date, on or after every record's date |
| Overview.DateRange | retail-sales-analysis.py:45-48 | the date range exists exactly for a non-empty table, bounds every record's date and is attained at both ends |
| Overview.BasicSalesOverview | retail-sales-analysis.py:41-49 | total = sum of amounts; count = number of records; the mean exists exactly for a non-empty table and is total / count; the date range is `Overview.DateRange` |
| Overview.ThreeDayExample | retail-sales-analysis.py:41-49 | sales of 10, 20, 30 on 1 to 3 January 2024 give total 60, mean 20, count 3 and that date range |
| Seasonal.PeriodEndAt | retail-sales-analysis.py:131 | the label of a period index is a month end (in month 3, 6, 9 or 12 for quarters) with that index |
| Seasonal.PeriodEndDetermined | retail-sales-analysis.py:131-136 | a period has one label: a period end is the label of its own period index |
| Seasonal.PeriodLabel | retail-sales-analysis.py:136 | a date's label is the end of its own period, on or after the date |
| Seasonal.PeriodNumber | retail-sales-analysis.py:139-140 | `dt.month` is in 1..12; `dt.quarter` is in 1..4, and a quarter label's month is 3·quarter |
| Seasonal.Trend | retail-sales-analysis.py:130-137 | empty for no sales; otherwise as many rows as there are periods from the first sale's to the last sale's |
| Seasonal.TrendAt | retail-sales-analysis.py:130-140 | row i is labelled with the end of the i-th period after the first sale's (so rows are consecutive periods in order) and holds that label's sum of sales and its month or quarter number |
| Seasonal.TrendEnds | retail-sales-analysis.py:130-137 | the first row is the earliest sale's period and the last row the latest sale's |
| Seasonal.TrendRowLabel | retail-sales-analysis.py:130-137 | row i carries the label of every date whose period is the i-th after the earliest sale's |
| Seasonal.TrendPeriods | retail-sales-analysis.py:139-140 | every row is dated on a month end; monthly rows carry month 1..12, quarterly rows quarter 1..4 dated in month 3·quarter |
| Seasonal.SeasonalTrendAnalysis | retail-sales-analysis.py:142-145 | returns the monthly and the quarterly trend; the quarterly one is never longer |
| Seasonal.TrendCovers | retail-sales-analysis.py:130-137 | every sale's period has a row, dated on or after the sale |
| Seasonal.TrendTotal | retail-sales-analysis.py:130-137 | the monthly (and the quarterly) sums add up to the total of all sales |
| Seasonal.TrendRowSales | retail-sales-analysis.py:130-137 | a row's sales are the sum of the sales dated within its period |
| Locations.LocationRow | retail-sales-analysis.py:154-158 | `total_sales` is the sum of the amounts at the location and `total_transactions` the number of its sales (both as masked sums over the table); `unique_stores` is the number of distinct stores with a sale there; 1 ≤ `unique_stores` ≤ `total_transactions` |
| Locations.DistinctStoresAt | retail-sales-analysis.py:156 | `nunique` of the store column of a location's group is the number of distinct stores with a sale at the location |
| Locations.LocationBasedInsights | retail-sales-analysis.py:154-164 | locations strictly ascending; each row is the row of its own location, which has a sale, with 1 ≤ unique stores ≤ transactions |
| Locations.LocationObserved | retail-sales-analysis.py:154-164 | every row's location is the location of some sale |
| Locations.LocationPartition | retail-sales-analysis.py:154-162 | every location with a sale has a row; location totals sum to the overall total and counts to the number of records |
| Anomalies.ZScoreSquared | retail-sales-analysis.py:258-260 | the squared score exists exactly for groups of two or more with non-zero spread, and is non-negative |
| Anomalies.ScoreFrom | retail-sales-analysis.py:259 | the squared score computed from integer deviations is non-negative |
| Anomalies.ScoreAlgebra | retail-sales-analysis.py:259 | with d = k·x − sum, the score d²(k−1)/ssd times the variance ssd/(k²(k−1)) is (x − sum/k)² |
| Anomalies.ZScoreSquaredMeaning | retail-sales-analysis.py:259 | squared score × sample variance = (x − mean)², i.e. it is the square of abs((x − mean)/std) |
| Anomalies.ScoreInSample | retail-sales-analysis.py:255-260 | a score exists exactly when the sample has two values that differ, and then it is the squared distance from the mean over the variance |
| Anomalies.ExceedsIsComparison | retail-sales-analysis.py:263 | for a score a ≥ 0, the squared test on a² agrees with `a > z` for every real z |
| Anomalies.ZScoreColumn | retail-sales-analysis.py:255-260 | one entry per sale; an entry exists exactly when the sale's (store, product type) group has two amounts that differ, and then it times the group's sample variance is the sale's squared distance from the group mean |
| Anomalies.AnomalyIndices | retail-sales-analysis.py:263 | the flagged positions, strictly increasing: exactly the positions whose score exists and exceeds z |
| Anomalies.SelectAnomalies | retail-sales-analysis.py:263 | the returned rows are, in table order, exactly the sales whose score exceeds z, each with its score |
| Anomalies.ThresholdMonotone | retail-sales-analysis.py:263 | raising z never adds a flagged sale, and the count does not grow |
| Anomalies.OutlierExample | retail-sales-analysis.py:255-263 | in the group [10, 10, 10, 100], the 100 scores exactly 1.5 (squared 2.25) and the 10s score 0.5; flagged at 1.49, not at 1.5 or 2.0 |
| Anomalies.RetailSalesAnalyzer.constructor | retail-sales-analysis.py:22 | the analyzer holds the given sales table and no score column yet |
| Anomalies.RetailSalesAnalyzer.DetectAnomalies | retail-sales-analysis.py:244-263 | stores the score column of the table, then returns the rows that column flags at the threshold |

## Left out

- Reading the CSV file, parsing dates and categories, and renaming columns in `__init__`: the analyzer is built from a sequence of records.
- `visualize_sales_trends`, `generate_comprehensive_report` and `main`: plotting, file writing and report formatting.
- Floating-point behaviour: amounts are exact integers, and derived statistics are exact reals.
- Square roots: `sales_volatility` is stored as the sample variance, and `sales_zscore` as the squared score.
- Missing values: every record has every field. A NaN statistic is modelled as `None`.
- Time of day: dates are whole days.
- The zero-sum rows that an `observed=False` categorical grouping would add for (month, store) pairs without sales: only observed pairs are modelled.
- Tables.Summarize: its contract does not state the `mean` column. `Tables.SummaryMean` states it separately.
- Locations.LocationRow: its contract does not state the `avg_sale` column. That column is `Statistics.Mean` of the location's amounts, whose contract gives mean × count = sum.
- The default arguments `n = 10` (line 51), `threshold_percentile = 25` (line 69) and `z_threshold = 3` (line 244): every operation takes these values as explicit parameters.
- The order of tied totals in `nlargest`/`nsmallest`: pandas does not guarantee it (with `n` at least the number of rows it sorts with an unstable quicksort). The model fixes one outcome, ties in ascending key order.
- The bounds of pandas timestamps (years 1677 to 2262): the model's dates have no year bound.
- Stores.StrugglingStores: its contract states only the error case and that the rows come from the volatility table. `Stores.SelectStruggling` states the threshold filter.
- Stores.StoreVolatilityTable: its contract states the store order. `Stores.VolatilityRows` states the mean and variance values, and `Stores.StoreVolatilityCovers` and `Stores.StoreVolatilityObserved` state the coverage.

=== FILE: anomalies.dfy ===
/** `detect_anomalies`: each sale's absolute z-score within its (store, product type) group
    is stored as a new column of the sales table, and the sales whose score is above the
    threshold are returned. Scores are kept squared (square roots are not modelled); a score
    pandas computes as NaN (a group of one sale, or of equal sales) is `None`. */
module Anomalies {
  import opened Wrappers
  import opened Records
  import opened Grouping
  import opened Statistics

  /** The group key of `groupby(['store_id', 'product_type'])`. */
  function StoreProductOf(r: SalesRecord): (string, string) {
    (r.storeId, r.productType)
  }

  /** The amounts of the sales in the same (store, product type) group as r. */
  function PeerAmounts(rs: seq<SalesRecord>, r: SalesRecord): seq<int> {
    Values(Group(rs, StoreProductOf, StoreProductOf(r)), Amount)
  }

  function Square(a: real): real { a * a }

  /** The square of `abs((x - mean) / std)` over the sample xs, computed exactly from integer
      deviations: None when the sample has fewer than two values or no spread. */
  function ZScoreSquared(x: int, xs: seq<int>): (s: Option<real>)
    ensures s.Some? <==> |xs| >= 2 && ScaledSquaredDeviations(xs) > 0
    ensures s.Some? ==> s.value >= 0.0
  {
    if |xs| < 2 || ScaledSquaredDeviations(xs) == 0 then None
    else Some(ScoreFrom(ScaledDeviation(x, xs), |xs|, ScaledSquaredDeviations(xs)))
  }

  /** The squared score of a value with scaled deviation d in a sample of k values whose
      scaled squared deviations add up to ssd. */
  function ScoreFrom(d: int, k: int, ssd: int): (s: real)
    requires k >= 1 && ssd > 0
    ensures s >= 0.0
  {
    (d * d * (k - 1)) as real / ssd as real
  }

  lemma ScaleBack(a: real, b: real, c: real)
    requires c > 0.0 && a * c == b * c
    ensures a == b
  {
    assert (a - b) * c == 0.0;
  }

  /** The algebra of the score: with d = k * x - sum, which is k times the distance e of x
      from the mean sum / k, the score d * d * (k - 1) / ssd times the variance
      ssd / (k * k * (k - 1)) is e * e. */
  lemma ScoreAlgebra(x: int, k: int, sum: int, ssd: int)
    requires k >= 2 && ssd > 0
    ensures ScoreFrom(k * x - sum, k, ssd) * VarianceFrom(k, ssd) == Square(x as real - sum as real / k as real)
  {
    var n := k as real;
    var d := k * x - sum;
    var e := x as real - sum as real / n;
    var score, variance := ScoreFrom(d, k, ssd), VarianceFrom(k, ssd);
    var c := n * n * (n - 1.0);
    CastProduct(k * k, k - 1);
    CastProduct(k, k);
    CastProduct(d * d, k - 1);
    CastProduct(d, d);
    CastProduct(k, x);
    assert c > 0.0;
    assert variance * c == ssd as real;
    assert e * n == d as real;
    assert score * ssd as real == (e * n) * (e * n) * (n - 1.0);
    assert (score * variance) * c == score * ssd as real;
    assert (e * n) * (e * n) * (n - 1.0) == (e * e) * c;
    ScaleBack(score * variance, e * e, c);
  }

  /** The score times the sample variance is the squared distance from the mean: the
      squared score is the square of |x - mean| / std. */
  lemma ZScoreSquaredMeaning(x: int, xs: seq<int>)
    requires ZScoreSquared(x, xs).Some?
    ensures ZScoreSquared(x, xs).value * SampleVariance(xs).value == Square(x as real - Mean(xs))
  {
    ScoreAlgebra(x, |xs|, Sum(xs), ScaledSquaredDeviations(xs));
  }

  /** `score > z_threshold`, stated on the squared score. */
  predicate Exceeds(scoreSquared: real, z: real) {
    z < 0.0 || scoreSquared > z * z
  }

  /** For a non-negative score a, comparing its square is the same as comparing a itself. */
  lemma ExceedsIsComparison(a: real, z: real)
    requires a >= 0.0
    ensures Exceeds(a * a, z) <==> a > z
  {
    if z >= 0.0 {
      if a > z {
        assert a * a > z * a >= z * z;
      } else {
        assert a * a <= z * a <= z * z;
      }
    }
  }

  /** NaN compares false: a missing score is never an anomaly. */
  predicate Anomalous(score: Option<real>, z: real) {
    score.Some? && Exceeds(score.value, z)
  }

  /** What a score s of value x in sample xs means: it is present exactly when the sample
      has two values that differ, and then s times the sample variance is the squared
      distance of x from the mean, that is s is the square of |x - mean| / std. */
  predicate IsScoreOf(s: Option<real>, x: int, xs: seq<int>) {
    && (s.Some? <==> |xs| >= 2 && !AllEqual(xs))
    && (s.Some? ==> s.value * SampleVariance(xs).value == Square(x as real - Mean(xs)))
  }

  lemma ScoreInSample(x: int, xs: seq<int>)
    ensures IsScoreOf(ZScoreSquared(x, xs), x, xs)
  {
    if |xs| >= 2 {
      ZeroVarianceIffConstant(xs);
      if ZScoreSquared(x, xs).Some? {
        ZScoreSquaredMeaning(x, xs);
      }
    }
  }

  /** The `sales_zscore` column: the squared score of each sale within its (store, product
      type) group; a sale alone in its group, or in a group of equal amounts, has none. */
  function ZScoreColumn(rs: seq<SalesRecord>): (col: seq<Option<real>>)
    ensures |col| == |rs|
    ensures forall i :: 0 <= i < |rs| ==> IsScoreOf(col[i], rs[i].salesAmount, PeerAmounts(rs, rs[i]))
  {
    var col := seq(|rs|, i requires 0 <= i < |rs| => ZScoreSquared(rs[i].salesAmount, PeerAmounts(rs, rs[i])));
    assert forall i :: 0 <= i < |rs| ==> IsScoreOf(col[i], rs[i].salesAmount, PeerAmounts(rs, rs[i])) by {
      forall i | 0 <= i < |rs| ensures IsScoreOf(col[i], rs[i].salesAmount, PeerAmounts(rs, rs[i])) {
        ScoreInSample(rs[i].salesAmount, PeerAmounts(rs, rs[i]));
      }
    }
    col
  }

  /** The positions of the column whose score exceeds z, in table order. */
  function AnomalyIndices(col: seq<Option<real>>, z: real): (ix: seq<nat>)
    ensures forall j :: 0 <= j < |ix| ==> ix[j] < |col| && Anomalous(col[ix[j]], z)
    ensures forall i :: 0 <= i < |col| && Anomalous(col[i], z) ==> i in ix
    ensures forall j, k :: 0 <= j < k < |ix| ==> ix[j] < ix[k]
    ensures |ix| <= |col|
  {
    if col == [] then []
    else
      var last := |col| - 1;
      var prefix := AnomalyIndices(col[..last], z);
      assert forall i :: 0 <= i < last ==> col[..last][i] == col[i];
      prefix + (if Anomalous(col[last], z) then [last] else [])
  }

  /** A returned row: the sale and its (squared) score. */
  datatype AnomalyRow = AnomalyRow(record: SalesRecord, zScoreSquared: real)

  /** `sales_df[sales_df['sales_zscore'] > z_threshold]` over a table and its score column. */
  function SelectAnomalies(rs: seq<SalesRecord>, col: seq<Option<real>>, z: real): (out: seq<AnomalyRow>)
    requires |col| == |rs|
    ensures |out| == |AnomalyIndices(col, z)| <= |rs|
    ensures forall j :: 0 <= j < |out| ==>
              var i := AnomalyIndices(col, z)[j];
              out[j] == AnomalyRow(rs[i], col[i].value) && Anomalous(col[i], z)
    ensures forall i :: 0 <= i < |rs| && Anomalous(col[i], z) ==> AnomalyRow(rs[i], col[i].value) in out
  {
    var ix := AnomalyIndices(col, z);
    var out := seq(|ix|, j requires 0 <= j < |ix| => AnomalyRow(rs[ix[j]], col[ix[j]].value));
    assert forall i :: 0 <= i < |rs| && Anomalous(col[i], z) ==> AnomalyRow(rs[i], col[i].value) in out by {
      forall i | 0 <= i < |rs| && Anomalous(col[i], z) ensures AnomalyRow(rs[i], col[i].value) in out {
        var j :| 0 <= j < |ix| && ix[j] == i;
        assert out[j] == AnomalyRow(rs[i], col[i].value);
      }
    }
    out
  }

  /** A higher threshold flags a subset of the sales flagged at a lower one. */
  lemma {:induction false} ThresholdMonotone(col: seq<Option<real>>, z1: real, z2: real)
    requires z1 <= z2
    ensures forall i :: i in AnomalyIndices(col, z2) ==> i in AnomalyIndices(col, z1)
    ensures |AnomalyIndices(col, z2)| <= |AnomalyIndices(col, z1)|
  {
    forall i | 0 <= i < |col| && Anomalous(col[i], z2) ensures Anomalous(col[i], z1) {
      if z1 >= 0.0 {
        assert z1 * z1 <= z1 * z2 <= z2 * z2;
      }
    }
    if col != [] {
      var last := |col| - 1;
      ThresholdMonotone(col[..last], z1, z2);
    }
  }

  /** Three equal sales and one of 100 in the same group: the mean is 32.5 and the sample
      variance 2025 (std 45), so the large sale scores exactly 1.5 and the others 0.5. */
  lemma OutlierExample()
    ensures ZScoreSquared(100, [10, 10, 10, 100]) == Some(2.25)
    ensures ZScoreSquared(10, [10, 10, 10, 100]) == Some(0.25)
    ensures SampleVariance([10, 10, 10, 100]) == Some(2025.0)
    ensures !Exceeds(2.25, 1.5) && Exceeds(2.25, 1.49) && !Exceeds(2.25, 2.0) && !Exceeds(0.25, 0.5)
  {
    var xs := [10, 10, 10, 100];
    assert Sum(xs) == 130;
    assert ScaledDeviation(10, xs) == -90;
    assert ScaledDeviation(100, xs) == 270;
    assert xs[1..] == [10, 10, 100] && xs[1..][1..] == [10, 100] && xs[1..][1..][1..] == [100];
    assert ScaledSquaredDeviations(xs) == 97200;
  }

  /** The analyzer: the sales table it was built on, and the score column that
      `detect_anomalies` adds to it (absent until the first call). */
  class RetailSalesAnalyzer {
    const salesDf: seq<SalesRecord>
    var salesZScore: Option<seq<Option<real>>>

    constructor (records: seq<SalesRecord>)
      ensures salesDf == records && salesZScore == None
    {
      salesDf := records;
      salesZScore := None;
    }

    /** Stores the score column, then returns the sales whose score exceeds the threshold. */
    method DetectAnomalies(zThreshold: real) returns (anomalies: seq<AnomalyRow>)
      modifies this
      ensures salesZScore == Some(ZScoreColumn(salesDf))
      ensures anomalies == SelectAnomalies(salesDf, salesZScore.value, zThreshold)
    {
      var column := ZScoreColumn(salesDf);
      salesZScore := Some(column);
      anomalies := SelectAnomalies(salesDf, column, zThreshold);
    }
  }
}

=== FILE: calendar.dfy ===
/** Calendar dates at day granularity and the month / quarter bucketing that
    `pd.Grouper(key='date', freq='M')` and `freq='Q'` perform. */
module Calendar {

  datatype CalendarDate = CalendarDate(year: int, month: int, day: int)

  /** The Gregorian leap-year rule. */
  predicate IsLeapYear(y: int) {
    y % 4 == 0 && (y % 100 != 0 || y % 400 == 0)
  }

  function DaysInMonth(y: int, m: int): (n: int)
    ensures 28 <= n <= 31
    ensures m == 2 ==> (n == 29 <==> IsLeapYear(y))
  {
    if m == 2 then (if IsLeapYear(y) then 29 else 28)
    else if m == 4 || m == 6 || m == 9 || m == 11 then 30
    else 31
  }

  predicate ValidDate(d: CalendarDate) {
    1 <= d.month <= 12 && 1 <= d.day <= DaysInMonth(d.year, d.month)
  }

  /** A parsed timestamp: always a real day of the Gregorian calendar. */
  type Date = d: CalendarDate | ValidDate(d) witness CalendarDate(1970, 1, 1)

  /** Chronological order. */
  predicate DateLe(a: Date, b: Date) {
    a.year < b.year || (a.year == b.year && (a.month < b.month || (a.month == b.month && a.day <= b.day)))
  }

  /** Months elapsed since January of year 0: consecutive months get consecutive indices. */
  function MonthIndex(d: Date): int {
    d.year * 12 + (d.month - 1)
  }

  /** Quarters elapsed since the first quarter of year 0. */
  function QuarterIndex(d: Date): int {
    d.year * 4 + (d.month - 1) / 3
  }

  /** The last day of the month with index t. */
  function MonthEndAt(t: int): (e: Date)
    ensures e.day == DaysInMonth(e.year, e.month)
    ensures MonthIndex(e) == t
  {
    CalendarDate(t / 12, t % 12 + 1, DaysInMonth(t / 12, t % 12 + 1))
  }

  /** The last day of the quarter with index t (a day of March, June, September or December). */
  function QuarterEndAt(t: int): (e: Date)
    ensures e.month % 3 == 0 && e.day == DaysInMonth(e.year, e.month)
    ensures QuarterIndex(e) == t
  {
    CalendarDate(t / 4, 3 * (t % 4) + 3, DaysInMonth(t / 4, 3 * (t % 4) + 3))
  }

  /** The last day of a month is determined by the month's index. */
  lemma MonthEndDetermined(d: Date)
    requires d.day == DaysInMonth(d.year, d.month)
    ensures d == MonthEndAt(MonthIndex(d))
  {
    var t := MonthIndex(d);
    assert t / 12 == d.year && t % 12 + 1 == d.month;
  }

  /** The last day of March, June, September or December is determined by the quarter's index. */
  lemma QuarterEndDetermined(d: Date)
    requires d.month % 3 == 0 && d.day == DaysInMonth(d.year, d.month)
    ensures d == QuarterEndAt(QuarterIndex(d))
  {
    var t := QuarterIndex(d);
    assert t / 4 == d.year && 3 * (t % 4) + 3 == d.month;
  }

  /** The label `freq='M'` gives a date: the last day of its month. */
  function MonthEnd(d: Date): (e: Date)
    ensures e.year == d.year && e.month == d.month && e.day == DaysInMonth(d.year, d.month)
    ensures DateLe(d, e)
  {
    MonthEndAt(MonthIndex(d))
  }

  /** The quarter number `dt.quarter` gives: 1 for January to March, ..., 4 for October to December. */
  function QuarterOf(d: Date): (q: int)
    ensures 1 <= q <= 4
    ensures 3 * q - 2 <= d.month <= 3 * q
  {
    (d.month - 1) / 3 + 1
  }

  /** The label `freq='Q'` gives a date: the last day of month 3 * quarter of its year. */
  function QuarterEnd(d: Date): (e: Date)
    ensures e.year == d.year && e.month == 3 * QuarterOf(d) && e.day == DaysInMonth(e.year, e.month)
    ensures DateLe(d, e)
  {
    QuarterEndAt(QuarterIndex(d))
  }

  /** Bucketing is order-preserving, so the earliest and latest dates bound every bucket index. */
  lemma BucketIndexMonotone(a: Date, b: Date)
    requires DateLe(a, b)
    ensures MonthIndex(a) <= MonthIndex(b)
    ensures QuarterIndex(a) <= QuarterIndex(b)
  {
  }

  /** Two dates fall in the same month bucket exactly when they have the same month index. */
  lemma MonthEndSameBucket(d: Date, t: int)
    ensures MonthEnd(d) == MonthEndAt(t) <==> MonthIndex(d) == t
  {
  }

  lemma QuarterEndSameBucket(d: Date, t: int)
    ensures QuarterEnd(d) == QuarterEndAt(t) <==> QuarterIndex(d) == t
  {
  }
}

=== FILE: grouping.dfy ===
/** The group-by-and-reduce primitive behind every `groupby(...).agg(...)` of the
    analyser: partition a table by a key, then reduce each group. */
module Grouping {
  import opened StringOrder

  function Sum(xs: seq<int>): int {
    if xs == [] then 0 else xs[0] + Sum(xs[1..])
  }

  lemma {:induction false} SumAppend(a: seq<int>, b: seq<int>)
    ensures Sum(a + b) == Sum(a) + Sum(b)
  {
    if a == [] {
      assert a + b == b;
    } else {
      assert (a + b)[1..] == a[1..] + b;
      SumAppend(a[1..], b);
    }
  }

  /** A column of a table: the value `w` reads from every row, in row order. */
  function Values<T>(xs: seq<T>, w: T -> int): (vs: seq<int>)
    ensures |vs| == |xs|
    ensures forall i :: 0 <= i < |xs| ==> vs[i] == w(xs[i])
  {
    if xs == [] then [] else [w(xs[0])] + Values(xs[1..], w)
  }

  /** The weight that turns a sum into a count. */
  function One<T>(x: T): int { 1 }

  lemma {:induction false} SumOfOnes<T>(xs: seq<T>)
    ensures Sum(Values(xs, One)) == |xs|
  {
    if xs != [] {
      SumOfOnes(xs[1..]);
    }
  }

  /** The rows of xs whose key is k, in their original order. */
  function Group<T(==), K(==)>(xs: seq<T>, key: T -> K, k: K): (g: seq<T>)
    ensures |g| <= |xs|
    ensures forall i :: 0 <= i < |g| ==> key(g[i]) == k
  {
    if xs == [] then [] else (if key(xs[0]) == k then [xs[0]] else []) + Group(xs[1..], key, k)
  }

  /** A group holds exactly the rows of xs with key k. */
  lemma {:induction false} GroupMembers<T, K>(xs: seq<T>, key: T -> K, k: K)
    ensures forall x :: x in Group(xs, key, k) <==> x in xs && key(x) == k
  {
    if xs != [] {
      GroupMembers(xs[1..], key, k);
      assert xs == [xs[0]] + xs[1..];
    }
  }

  /** A table none of whose rows has key k has an empty group k. */
  lemma {:induction false} GroupNone<T, K>(xs: seq<T>, key: T -> K, k: K)
    requires forall i :: 0 <= i < |xs| ==> key(xs[i]) != k
    ensures Group(xs, key, k) == []
  {
    if xs != [] {
      GroupNone(xs[1..], key, k);
    }
  }

  /** Grouping a group by a finer key: when every row with inner key b has outer key a, the
      rows of group a with inner key b are all the rows of the table with inner key b. */
  lemma {:induction false} GroupOfGroup<T, K, L>(xs: seq<T>, outer: T -> K, a: K, inner: T -> L, b: L)
    requires forall x :: inner(x) == b ==> outer(x) == a
    ensures Group(Group(xs, outer, a), inner, b) == Group(xs, inner, b)
  {
    if xs != [] {
      GroupOfGroup(xs[1..], outer, a, inner, b);
      var rest := Group(xs[1..], outer, a);
      if outer(xs[0]) == a {
        var g := [xs[0]] + rest;
        assert g[0] == xs[0] && g[1..] == rest;
        assert Group(xs, outer, a) == g;
      } else {
        assert inner(xs[0]) != b;
        assert Group(xs, outer, a) == rest;
        assert Group(xs, inner, b) == Group(xs[1..], inner, b);
      }
    }
  }

  lemma GroupMemberIn<T, K>(xs: seq<T>, key: T -> K, k: K, y: T)
    requires y in Group(xs, key, k)
    ensures y in xs
  {
    GroupMembers(xs, key, k);
  }

  lemma GroupMemberOf<T, K>(xs: seq<T>, key: T -> K, k: K, y: T) returns (i: nat)
    requires y in xs && key(y) == k
    ensures i < |Group(xs, key, k)| && Group(xs, key, k)[i] == y
  {
    GroupMembers(xs, key, k);
    i :| 0 <= i < |Group(xs, key, k)| && Group(xs, key, k)[i] == y;
  }

  /** Rows that f tells apart stay apart in a group. */
  lemma {:induction false} GroupDistinct<T, K, L>(xs: seq<T>, key: T -> K, k: K, f: T -> L)
    requires forall i, j :: 0 <= i < j < |xs| ==> f(xs[i]) != f(xs[j])
    ensures forall i, j :: 0 <= i < j < |Group(xs, key, k)| ==> f(Group(xs, key, k)[i]) != f(Group(xs, key, k)[j])
  {
    if xs != [] {
      var rest := xs[1..];
      assert forall i, j :: 0 <= i < j < |rest| ==> f(rest[i]) != f(rest[j]) by {
        forall i, j | 0 <= i < j < |rest| ensures f(rest[i]) != f(rest[j]) {
          assert rest[i] == xs[i + 1] && rest[j] == xs[j + 1];
        }
      }
      GroupDistinct(rest, key, k, f);
      var gr := Group(rest, key, k);
      if key(xs[0]) == k {
        var g := [xs[0]] + gr;
        assert Group(xs, key, k) == g;
        forall i, j | 0 <= i < j < |g| ensures f(g[i]) != f(g[j]) {
          assert g[j] == gr[j - 1];
          if i == 0 {
            GroupMemberIn(rest, key, k, gr[j - 1]);
            var m :| 0 <= m < |rest| && rest[m] == gr[j - 1];
            assert xs[m + 1] == rest[m];
          } else {
            assert g[i] == gr[i - 1];
          }
        }
      } else {
        assert Group(xs, key, k) == gr;
      }
    }
  }

  /** The weight w on the rows whose key is k and 0 on every other row: a column masked to
      one group, summed over the whole table without forming the group. */
  function Masked<T, K(==)>(key: T -> K, k: K, w: T -> int): T -> int {
    x => if key(x) == k then w(x) else 0
  }

  /** Summing a group is summing the masked column over the whole table. */
  lemma {:induction false} GroupSumIsMaskedSum<T, K>(xs: seq<T>, key: T -> K, k: K, w: T -> int)
    ensures Sum(Values(Group(xs, key, k), w)) == Sum(Values(xs, Masked(key, k, w)))
  {
    if xs != [] {
      GroupSumIsMaskedSum(xs[1..], key, k, w);
      var head := if key(xs[0]) == k then [xs[0]] else [];
      assert Group(xs, key, k) == head + Group(xs[1..], key, k);
      assert Values(head + Group(xs[1..], key, k), w) == Values(head, w) + Values(Group(xs[1..], key, k), w);
      SumAppend(Values(head, w), Values(Group(xs[1..], key, k), w));
    }
  }

  predicate NoDuplicates<K(==)>(ks: seq<K>) {
    forall i, j :: 0 <= i < j < |ks| ==> ks[i] != ks[j]
  }

  /** The distinct keys that occur in xs, each once (the observed groups). */
  function DistinctKeys<T, K(==)>(xs: seq<T>, key: T -> K): (ks: seq<K>)
    ensures NoDuplicates(ks)
    ensures |ks| <= |xs|
    ensures xs != [] ==> ks != []
    ensures forall i :: 0 <= i < |xs| ==> key(xs[i]) in ks
    ensures forall k :: k in ks ==> exists i :: 0 <= i < |xs| && key(xs[i]) == k
  {
    if xs == [] then []
    else
      var rest := DistinctKeys(xs[1..], key);
      assert forall i :: 1 <= i < |xs| ==> key(xs[i]) == key(xs[1..][i - 1]);
      if key(xs[0]) in rest then rest else [key(xs[0])] + rest
  }

  /** The distinct labels that occur in xs, in sorted order: the row order of a
      `groupby` on a categorical column. */
  function SortedKeys<T>(xs: seq<T>, key: T -> string): (ks: seq<string>)
    ensures StrictlySorted(ks)
    ensures forall i :: 0 <= i < |xs| ==> key(xs[i]) in ks
    ensures forall k :: k in ks ==> exists i :: 0 <= i < |xs| && key(xs[i]) == k
  {
    if xs == [] then []
    else
      var rest := SortedKeys(xs[1..], key);
      assert forall i :: 1 <= i < |xs| ==> key(xs[i]) == key(xs[1..][i - 1]);
      InsertLabel(key(xs[0]), rest)
  }

  /** Every observed key has a non-empty group. */
  lemma ObservedGroupNonEmpty<T, K>(xs: seq<T>, key: T -> K, k: K)
    requires exists i :: 0 <= i < |xs| && key(xs[i]) == k
    ensures |Group(xs, key, k)| >= 1
  {
    var i :| 0 <= i < |xs| && key(xs[i]) == k;
    GroupMembers(xs, key, k);
    assert xs[i] in Group(xs, key, k);
  }

  /** Every key of ks has at least one row. */
  predicate AllObserved<T(==), K(==)>(xs: seq<T>, key: T -> K, ks: seq<K>) {
    forall i :: 0 <= i < |ks| ==> |Group(xs, key, ks[i])| > 0
  }

  lemma SortedKeysObserved<T>(xs: seq<T>, key: T -> string)
    ensures AllObserved(xs, key, SortedKeys(xs, key))
  {
    var ks := SortedKeys(xs, key);
    forall i | 0 <= i < |ks| ensures |Group(xs, key, ks[i])| > 0 {
      assert ks[i] in ks;
      ObservedGroupNonEmpty(xs, key, ks[i]);
    }
  }

  /** The per-group sums of weight w, added up over the key list ks. */
  function GroupTotals<T(==), K(==)>(xs: seq<T>, key: T -> K, ks: seq<K>, w: T -> int): int {
    if ks == [] then 0 else Sum(Values(Group(xs, key, ks[0]), w)) + GroupTotals(xs, key, ks[1..], w)
  }

  lemma {:induction false} GroupTotalsEmpty<T, K>(key: T -> K, ks: seq<K>, w: T -> int)
    ensures GroupTotals([], key, ks, w) == 0
  {
    if ks != [] {
      GroupTotalsEmpty(key, ks[1..], w);
    }
  }

  /** Adding one row to the table adds its weight to exactly one group of a duplicate-free key list. */
  lemma {:induction false} GroupTotalsCons<T, K>(x: T, rest: seq<T>, key: T -> K, ks: seq<K>, w: T -> int)
    requires NoDuplicates(ks)
    ensures GroupTotals([x] + rest, key, ks, w) == (if key(x) in ks then w(x) else 0) + GroupTotals(rest, key, ks, w)
  {
    if ks != [] {
      var xs := [x] + rest;
      assert xs[0] == x && xs[1..] == rest;
      GroupTotalsCons(x, rest, key, ks[1..], w);
      if key(x) == ks[0] {
        assert Group(xs, key, ks[0]) == [x] + Group(rest, key, ks[0]);
        assert Values([x] + Group(rest, key, ks[0]), w) == [w(x)] + Values(Group(rest, key, ks[0]), w);
        assert key(x) !in ks[1..];
      } else {
        assert Group(xs, key, ks[0]) == Group(rest, key, ks[0]);
      }
    }
  }

  /** A column that holds, row by row, the group sums of the keys ks adds up to their group totals. */
  lemma {:induction false} ColumnTotals<T, K, R>(xs: seq<T>, key: T -> K, ks: seq<K>, w: T -> int, rows: seq<R>, col: R -> int)
    requires |rows| == |ks|
    requires forall i :: 0 <= i < |ks| ==> col(rows[i]) == Sum(Values(Group(xs, key, ks[i]), w))
    ensures Sum(Values(rows, col)) == GroupTotals(xs, key, ks, w)
  {
    if ks != [] {
      assert forall i :: 0 <= i < |ks| - 1 ==> rows[1..][i] == rows[i + 1] && ks[1..][i] == ks[i + 1];
      ColumnTotals(xs, key, ks[1..], w, rows[1..], col);
    }
  }

  /** Partition invariant: when ks lists every observed key once, every row is counted in
      exactly one group, so the per-group sums add up to the sum over the whole table. */
  lemma {:induction false} PartitionTotal<T, K>(xs: seq<T>, key: T -> K, ks: seq<K>, w: T -> int)
    requires NoDuplicates(ks)
    requires forall i :: 0 <= i < |xs| ==> key(xs[i]) in ks
    ensures GroupTotals(xs, key, ks, w) == Sum(Values(xs, w))
  {
    if xs == [] {
      GroupTotalsEmpty(key, ks, w);
    } else {
      assert xs == [xs[0]] + xs[1..];
      GroupTotalsCons(xs[0], xs[1..], key, ks, w);
      PartitionTotal(xs[1..], key, ks, w);
    }
  }

  /** The set of entries of a list. */
  function Elements<K>(ks: seq<K>): set<K> {
    set k | k in ks
  }

  /** A list without duplicates has as many entries as its set of entries has members. */
  lemma {:induction false} NoDuplicatesCardinality<K>(ks: seq<K>)
    requires NoDuplicates(ks)
    ensures |Elements(ks)| == |ks|
  {
    if ks != [] {
      assert NoDuplicates(ks[1..]) by {
        forall i, j | 0 <= i < j < |ks[1..]| ensures ks[1..][i] != ks[1..][j] {
          assert ks[1..][i] == ks[i + 1] && ks[1..][j] == ks[j + 1];
        }
      }
      NoDuplicatesCardinality(ks[1..]);
      assert ks[0] !in ks[1..];
      assert Elements(ks) == {ks[0]} + Elements(ks[1..]);
    }
  }

  lemma SortedKeysNoDuplicates(ks: seq<string>)
    requires StrictlySorted(ks)
    ensures NoDuplicates(ks)
  {
    StrictlySortedDistinct(ks);
  }
}

=== FILE: locations.dfy ===
/** `location_based_insights`: per location, the total and mean sale, the number of distinct
    stores and the number of transactions. */
module Locations {
  import opened StringOrder
  import opened Records
  import opened Grouping
  import opened Statistics

  datatype LocationPerformance = LocationPerformance(
    location: string,
    totalSales: int,
    avgSale: real,
    uniqueStores: nat,
    totalTransactions: nat)

  function LocationTotalOf(row: LocationPerformance): int { row.totalSales }

  function LocationCountOf(row: LocationPerformance): int { row.totalTransactions }

  /** The row of one location; `nunique` of the store column is the number of distinct stores. */
  function LocationRow(rs: seq<SalesRecord>, l: string): (row: LocationPerformance)
    requires |Group(rs, LocationOf, l)| > 0
    ensures row.location == l
    ensures row.totalSales == Sum(Values(rs, Masked(LocationOf, l, Amount)))
    ensures row.totalTransactions == Sum(Values(rs, Masked(LocationOf, l, One)))
    ensures row.uniqueStores == |StoresAt(rs, l)|
    ensures 1 <= row.uniqueStores <= row.totalTransactions
  {
    var g := Group(rs, LocationOf, l);
    var amounts := Values(g, Amount);
    GroupSumIsMaskedSum(rs, LocationOf, l, Amount);
    GroupSumIsMaskedSum(rs, LocationOf, l, One);
    SumOfOnes(g);
    DistinctStoresAt(rs, l);
    LocationPerformance(l, Sum(amounts), Mean(amounts), |DistinctKeys(g, StoreOf)|, |g|)
  }

  /** The distinct stores with a sale at location l. */
  function StoresAt(rs: seq<SalesRecord>, l: string): set<string> {
    set r | r in rs && r.location == l :: r.storeId
  }

  /** The stores listed for a location's group are exactly the stores with a sale there, once each. */
  lemma DistinctStoresAt(rs: seq<SalesRecord>, l: string)
    ensures |DistinctKeys(Group(rs, LocationOf, l), StoreOf)| == |StoresAt(rs, l)|
  {
    var g := Group(rs, LocationOf, l);
    var ks := DistinctKeys(g, StoreOf);
    NoDuplicatesCardinality(ks);
    forall s | s in ks ensures s in StoresAt(rs, l) {
      var i :| 0 <= i < |g| && StoreOf(g[i]) == s;
      assert g[i] in g;
      GroupMemberIn(rs, LocationOf, l, g[i]);
    }
    forall s | s in StoresAt(rs, l) ensures s in ks {
      var r :| r in rs && r.location == l && r.storeId == s;
      var i := GroupMemberOf(rs, LocationOf, l, r);
      assert StoreOf(g[i]) == s;
    }
    assert Elements(ks) == StoresAt(rs, l);
  }

  function LocationRows(rs: seq<SalesRecord>, ks: seq<string>): (t: seq<LocationPerformance>)
    requires AllObserved(rs, LocationOf, ks)
    ensures |t| == |ks|
    ensures forall i :: 0 <= i < |ks| ==> t[i] == LocationRow(rs, ks[i])
  {
    seq(|ks|, i requires 0 <= i < |ks| => LocationRow(rs, ks[i]))
  }

  /** One row per location, in location order. */
  function LocationBasedInsights(rs: seq<SalesRecord>): (t: seq<LocationPerformance>)
    ensures forall i, j :: 0 <= i < j < |t| ==> StrLess(t[i].location, t[j].location)
    ensures forall row :: row in t ==> 1 <= row.uniqueStores <= row.totalTransactions
    ensures forall i :: 0 <= i < |t| ==>
              |Group(rs, LocationOf, t[i].location)| > 0 && t[i] == LocationRow(rs, t[i].location)
  {
    SortedKeysObserved(rs, LocationOf);
    LocationRows(rs, SortedKeys(rs, LocationOf))
  }

  lemma LocationColumns(rs: seq<SalesRecord>, ks: seq<string>)
    requires AllObserved(rs, LocationOf, ks)
    ensures Sum(Values(LocationRows(rs, ks), LocationTotalOf)) == GroupTotals(rs, LocationOf, ks, Amount)
    ensures Sum(Values(LocationRows(rs, ks), LocationCountOf)) == GroupTotals(rs, LocationOf, ks, One)
  {
    var t := LocationRows(rs, ks);
    forall i | 0 <= i < |ks|
      ensures t[i].totalSales == Sum(Values(Group(rs, LocationOf, ks[i]), Amount))
      ensures t[i].totalTransactions == Sum(Values(Group(rs, LocationOf, ks[i]), One))
    {
      GroupSumIsMaskedSum(rs, LocationOf, ks[i], Amount);
      GroupSumIsMaskedSum(rs, LocationOf, ks[i], One);
    }
    ColumnTotals(rs, LocationOf, ks, Amount, t, LocationTotalOf);
    ColumnTotals(rs, LocationOf, ks, One, t, LocationCountOf);
  }

  /** Every row is the location of some sale. */
  lemma LocationObserved(rs: seq<SalesRecord>, j: nat)
    requires j < |LocationBasedInsights(rs)|
    ensures exists i :: 0 <= i < |rs| && rs[i].location == LocationBasedInsights(rs)[j].location
  {
    var ks := SortedKeys(rs, LocationOf);
    SortedKeysObserved(rs, LocationOf);
    assert ks[j] in ks;
  }

  /** Every location with a sale has a row, and the location totals and transaction counts
      add up to the overall total and the number of records. */
  lemma LocationPartition(rs: seq<SalesRecord>)
    ensures forall i :: 0 <= i < |rs| ==> exists j :: 0 <= j < |LocationBasedInsights(rs)| && LocationBasedInsights(rs)[j].location == rs[i].location
    ensures Sum(Values(LocationBasedInsights(rs), LocationTotalOf)) == Sum(Values(rs, Amount))
    ensures Sum(Values(LocationBasedInsights(rs), LocationCountOf)) == |rs|
  {
    var ks := SortedKeys(rs, LocationOf);
    SortedKeysNoDuplicates(ks);
    SortedKeysObserved(rs, LocationOf);
    var t := LocationBasedInsights(rs);
    forall i | 0 <= i < |rs| ensures exists j :: 0 <= j < |t| && t[j].location == rs[i].location {
      assert LocationOf(rs[i]) in ks;
      var j :| 0 <= j < |ks| && ks[j] == LocationOf(rs[i]);
      assert t[j].location == rs[i].location;
    }
    LocationColumns(rs, ks);
    PartitionTotal(rs, LocationOf, ks, Amount);
    PartitionTotal(rs, LocationOf, ks, One);
    SumOfOnes(rs);
  }
}

=== FILE: overview.dfy ===
/** `basic_sales_overview`: total, mean and count of the sales and the range of their dates. */
module Overview {
  import opened Wrappers
  import opened Calendar
  import opened Records
  import opened Grouping
  import opened Statistics

  /** The earliest date of a non-empty table (`date.min()`). */
  function EarliestDate(rs: seq<SalesRecord>): (d: Date)
    requires |rs| > 0
    ensures exists i :: 0 <= i < |rs| && rs[i].date == d
    ensures forall i :: 0 <= i < |rs| ==> DateLe(d, rs[i].date)
  {
    if |rs| == 1 then rs[0].date
    else
      var rest := EarliestDate(rs[1..]);
      assert forall i :: 1 <= i < |rs| ==> rs[i] == rs[1..][i - 1];
      if DateLe(rs[0].date, rest) then rs[0].date else rest
  }

  /** The latest date of a non-empty table (`date.max()`). */
  function LatestDate(rs: seq<SalesRecord>): (d: Date)
    requires |rs| > 0
    ensures exists i :: 0 <= i < |rs| && rs[i].date == d
    ensures forall i :: 0 <= i < |rs| ==> DateLe(rs[i].date, d)
  {
    if |rs| == 1 then rs[0].date
    else
      var rest := LatestDate(rs[1..]);
      assert forall i :: 1 <= i < |rs| ==> rs[i] == rs[1..][i - 1];
      if DateLe(rest, rs[0].date) then rs[0].date else rest
  }

  /** The overview. An empty table has a total of 0 and no mean or date range (NaN, NaT). */
  datatype SalesOverview = SalesOverview(
    totalSales: int,
    averageTransaction: Option<real>,
    totalTransactions: nat,
    dateRange: Option<(Date, Date)>)

  /** `(date.min(), date.max())`: absent (NaT) for an empty table; otherwise it bounds every
      date and both ends are dates of records. */
  function DateRange(rs: seq<SalesRecord>): (range: Option<(Date, Date)>)
    ensures range.Some? <==> |rs| > 0
    ensures range.Some? ==>
              (forall i :: 0 <= i < |rs| ==> DateLe(range.value.0, rs[i].date) && DateLe(rs[i].date, range.value.1))
              && (exists i :: 0 <= i < |rs| && rs[i].date == range.value.0)
              && (exists i :: 0 <= i < |rs| && rs[i].date == range.value.1)
  {
    if rs == [] then None else Some((EarliestDate(rs), LatestDate(rs)))
  }

  function BasicSalesOverview(rs: seq<SalesRecord>): (o: SalesOverview)
    ensures o.totalSales == Sum(Values(rs, Amount)) && o.totalTransactions == |rs|
    ensures o.averageTransaction.Some? <==> |rs| > 0
    ensures o.averageTransaction.Some? ==> o.averageTransaction.value == o.totalSales as real / o.totalTransactions as real
    ensures o.dateRange == DateRange(rs)
  {
    var amounts := Values(rs, Amount);
    var total := Sum(amounts);
    var n := |amounts|;
    assert n == |rs|;
    var average := if n == 0 then None else Some(Mean(amounts));
    SalesOverview(total, average, n, DateRange(rs))
  }

  /** Three sales of 10, 20 and 30 on the first three days of 2024. */
  lemma ThreeDayExample()
    ensures var rs := [
              SalesRecord(CalendarDate(2024, 1, 1), "S1", "T", "P", "L", 10),
              SalesRecord(CalendarDate(2024, 1, 2), "S1", "T", "P", "L", 20),
              SalesRecord(CalendarDate(2024, 1, 3), "S1", "T", "P", "L", 30)];
            BasicSalesOverview(rs)
            == SalesOverview(60, Some(20.0), 3, Some((CalendarDate(2024, 1, 1), CalendarDate(2024, 1, 3))))
  {
    var rs := [
      SalesRecord(CalendarDate(2024, 1, 1), "S1", "T", "P", "L", 10),
      SalesRecord(CalendarDate(2024, 1, 2), "S1", "T", "P", "L", 20),
      SalesRecord(CalendarDate(2024, 1, 3), "S1", "T", "P", "L", 30)];
    assert Values(rs, Amount) == [10, 20, 30];
    assert Sum([10, 20, 30]) == 60;
    assert rs[1..][1..] == [rs[2]];
    assert EarliestDate(rs) == CalendarDate(2024, 1, 1);
    assert LatestDate(rs) == CalendarDate(2024, 1, 3);
  }
}

=== FILE: products.dfy ===
/** `product_performance_analysis`: the five best and the five worst product types by total sales. */
module Products {
  import opened Records
  import opened Grouping
  import opened Tables
  import opened Ranking

  /** The per-product-type table: total, mean and count of sales, one row per product type. */
  function ProductPerformance(rs: seq<SalesRecord>): (t: seq<GroupSummary>)
    ensures |t| == |SortedKeys(rs, ProductTypeOf)|
    ensures forall i :: 0 <= i < |rs| ==> rs[i].productType in KeysOf(t)
  {
    SummariesKeys(rs, ProductTypeOf);
    Summaries(rs, ProductTypeOf)
  }

  /** `nlargest(5, 'total_sales')`: the best product types, best first. */
  function TopProducts(rs: seq<SalesRecord>): (top: seq<GroupSummary>)
    ensures |top| == Take(5, |SortedKeys(rs, ProductTypeOf)|)
    ensures forall x :: x in top ==> x in ProductPerformance(rs)
    ensures forall i, j :: 0 <= i < j < |top| ==> top[i].totalSales >= top[j].totalSales
    ensures forall x, y :: x in top && y in ProductPerformance(rs) && y !in top ==> Precedes(Largest, x, y)
  {
    var t := ProductPerformance(rs);
    SummariesUniqueKeys(rs, ProductTypeOf);
    SelectByTotal(Largest, t, 5);
    Select(Largest, t, 5)
  }

  /** `nsmallest(5, 'total_sales')`: the worst product types, worst first. */
  function BottomProducts(rs: seq<SalesRecord>): (bottom: seq<GroupSummary>)
    ensures |bottom| == Take(5, |SortedKeys(rs, ProductTypeOf)|)
    ensures forall x :: x in bottom ==> x in ProductPerformance(rs)
    ensures forall i, j :: 0 <= i < j < |bottom| ==> bottom[i].totalSales <= bottom[j].totalSales
    ensures forall x, y :: x in bottom && y in ProductPerformance(rs) && y !in bottom ==> Precedes(Smallest, x, y)
  {
    var t := ProductPerformance(rs);
    SummariesUniqueKeys(rs, ProductTypeOf);
    SelectByTotal(Smallest, t, 5);
    Select(Smallest, t, 5)
  }

  datatype ProductRanking = ProductRanking(top: seq<GroupSummary>, bottom: seq<GroupSummary>)

  /** Both lists: the five best product types and the five worst, each of at most five rows;
      a product type that is only in the bottom list never sold more than one in the top list. */
  function ProductPerformanceAnalysis(rs: seq<SalesRecord>): (res: ProductRanking)
    ensures res.top == TopProducts(rs) && res.bottom == BottomProducts(rs)
    ensures |res.top| == |res.bottom| == Take(5, |SortedKeys(rs, ProductTypeOf)|) <= 5
    ensures forall x, y :: x in res.top && y in res.bottom && y !in res.top ==> y.totalSales <= x.totalSales
  {
    var top := TopProducts(rs);
    var bottom := BottomProducts(rs);
    assert forall x, y :: x in top && y in bottom && y !in top ==> y.totalSales <= x.totalSales by {
      forall x, y | x in top && y in bottom && y !in top ensures y.totalSales <= x.totalSales {
        assert Precedes(Largest, x, y);
      }
    }
    ProductRanking(top, bottom)
  }
}

=== FILE: ranking.dfy ===
/** `nlargest(n, 'total_sales')` and `nsmallest(n, 'total_sales')` over a reduced table.
    The table is in sorted key order and pandas keeps the first of tied rows, so ties
    are broken in favour of the smaller key. */
module Ranking {
  import opened StringOrder
  import opened Grouping
  import opened Records
  import opened Tables

  datatype Direction = Largest | Smallest

  /** Row a is ranked ahead of row b: a better total, or an equal total and a smaller key. */
  predicate Precedes(dir: Direction, a: GroupSummary, b: GroupSummary) {
    if a.totalSales != b.totalSales then
      (if dir == Largest then a.totalSales > b.totalSales else a.totalSales < b.totalSales)
    else StrLess(a.key, b.key)
  }

  lemma PrecedesTransitive(dir: Direction, a: GroupSummary, b: GroupSummary, c: GroupSummary)
    requires Precedes(dir, a, b) && Precedes(dir, b, c)
    ensures Precedes(dir, a, c)
  {
    if a.totalSales == b.totalSales == c.totalSales {
      StrLessTransitive(a.key, b.key, c.key);
    }
  }

  lemma PrecedesTotal(dir: Direction, a: GroupSummary, b: GroupSummary)
    requires a.key != b.key
    ensures Precedes(dir, a, b) || Precedes(dir, b, a)
  {
    StrLessTotal(a.key, b.key);
  }

  lemma PrecedesAsymmetric(dir: Direction, a: GroupSummary, b: GroupSummary)
    requires Precedes(dir, a, b)
    ensures !Precedes(dir, b, a)
  {
    if a.totalSales == b.totalSales {
      StrLessAsymmetric(a.key, b.key);
    }
  }

  predicate Ranked(dir: Direction, s: seq<GroupSummary>) {
    forall i, j :: 0 <= i < j < |s| ==> Precedes(dir, s[i], s[j])
  }

  predicate UniqueKeys(t: seq<GroupSummary>) {
    forall i, j :: 0 <= i < |t| && 0 <= j < |t| && i != j ==> t[i].key != t[j].key
  }

  /** A reduced table has one row per key. */
  lemma SummariesUniqueKeys(rs: seq<SalesRecord>, key: SalesRecord -> string)
    ensures UniqueKeys(Summaries(rs, key))
  {
    var t := Summaries(rs, key);
    StrictlySortedDistinct(SortedKeys(rs, key));
  }

  function Insert(dir: Direction, x: GroupSummary, s: seq<GroupSummary>): (r: seq<GroupSummary>)
    ensures |r| == |s| + 1
    ensures multiset(r) == multiset(s) + multiset{x}
  {
    if s == [] then [x]
    else if Precedes(dir, x, s[0]) then [x] + s
    else
      assert s == [s[0]] + s[1..];
      [s[0]] + Insert(dir, x, s[1..])
  }

  /** The table ordered by rank: a permutation of it. */
  function Rank(dir: Direction, t: seq<GroupSummary>): (s: seq<GroupSummary>)
    ensures |s| == |t|
    ensures multiset(s) == multiset(t)
  {
    if t == [] then []
    else
      assert t == [t[0]] + t[1..];
      Insert(dir, t[0], Rank(dir, t[1..]))
  }

  lemma {:induction false} InsertRanked(dir: Direction, x: GroupSummary, s: seq<GroupSummary>)
    requires Ranked(dir, s)
    requires forall y :: y in s ==> y.key != x.key
    ensures Ranked(dir, Insert(dir, x, s))
  {
    if s == [] {
    } else if Precedes(dir, x, s[0]) {
      forall j | 0 < j < |s| ensures Precedes(dir, x, s[j]) {
        PrecedesTransitive(dir, x, s[0], s[j]);
      }
    } else {
      PrecedesTotal(dir, x, s[0]);
      InsertRanked(dir, x, s[1..]);
      var rest := Insert(dir, x, s[1..]);
      forall j | 0 <= j < |rest| ensures Precedes(dir, s[0], rest[j]) {
        assert rest[j] in multiset(rest);
        if rest[j] != x {
          assert rest[j] in multiset(s[1..]);
          var k :| 0 <= k < |s[1..]| && s[1..][k] == rest[j];
          assert s[k + 1] == rest[j];
        }
      }
    }
  }

  /** Ordering a table with distinct keys yields a strict ranking. */
  lemma {:induction false} RankRanked(dir: Direction, t: seq<GroupSummary>)
    requires UniqueKeys(t)
    ensures Ranked(dir, Rank(dir, t))
  {
    if t != [] {
      assert UniqueKeys(t[1..]);
      RankRanked(dir, t[1..]);
      forall y | y in Rank(dir, t[1..]) ensures y.key != t[0].key {
        assert y in multiset(Rank(dir, t[1..]));
        assert y in t[1..];
      }
      InsertRanked(dir, t[0], Rank(dir, t[1..]));
    }
  }

  /** How many rows `nlargest(n)` returns from a table of m rows: none for n <= 0. */
  function Take(n: int, m: nat): (c: nat)
    ensures c <= m
    ensures n <= 0 ==> c == 0
    ensures n > 0 ==> c <= n && (c == n || c == m)
  {
    if n <= 0 then 0 else if n < m then n else m
  }

  /** The first n rows in rank order. */
  function Select(dir: Direction, t: seq<GroupSummary>, n: int): (r: seq<GroupSummary>)
    requires UniqueKeys(t)
    ensures |r| == Take(n, |t|)
    ensures forall x :: x in r ==> x in t
    ensures Ranked(dir, r)
    ensures forall x, y :: x in r && y in t && y !in r ==> Precedes(dir, x, y)
  {
    RankRanked(dir, t);
    RankPrefix(dir, t, Take(n, |t|));
    Rank(dir, t)[..Take(n, |t|)]
  }

  /** The first k rows in rank order are rows of the table, and each precedes every row left out. */
  lemma RankPrefix(dir: Direction, t: seq<GroupSummary>, k: nat)
    requires UniqueKeys(t) && k <= |t|
    ensures forall x :: x in Rank(dir, t)[..k] ==> x in t
    ensures forall x, y :: x in Rank(dir, t)[..k] && y in t && y !in Rank(dir, t)[..k] ==> Precedes(dir, x, y)
  {
    var s := Rank(dir, t);
    RankRanked(dir, t);
    var r := s[..k];
    forall x | x in s ensures x in t {
      assert x in multiset(s);
    }
    forall x, y | x in r && y in t && y !in r ensures Precedes(dir, x, y) {
      var i :| 0 <= i < |r| && r[i] == x;
      assert y in multiset(t);
      var j :| 0 <= j < |s| && s[j] == y;
      assert j >= |r|;
    }
  }

  /** The selected rows are in order of their totals, largest (or smallest) first, and no row
      left out has a better total than a selected one. */
  lemma SelectByTotal(dir: Direction, t: seq<GroupSummary>, n: int)
    requires UniqueKeys(t)
    ensures var r := Select(dir, t, n);
            forall i, j :: 0 <= i < j < |r| ==>
              if dir == Largest then r[i].totalSales >= r[j].totalSales else r[i].totalSales <= r[j].totalSales
    ensures var r := Select(dir, t, n);
            forall x, y :: x in r && y in t && y !in r ==>
              if dir == Largest then y.totalSales <= x.totalSales else y.totalSales >= x.totalSales
  {
    var r := Select(dir, t, n);
    assert Ranked(dir, r);
    forall x, y | x in r && y in t && y !in r
      ensures if dir == Largest then y.totalSales <= x.totalSales else y.totalSales >= x.totalSales
    {
      assert Precedes(dir, x, y);
    }
  }
}

=== FILE: records.dfy ===
/** The sales table: one record per transaction. */
module Records {
  import opened Calendar

  /** A sales transaction. The amount is in cents so that sums are exact. */
  datatype SalesRecord = SalesRecord(
    date: Date,
    storeId: string,
    productType: string,
    productName: string,
    location: string,
    salesAmount: int)

  // Column selectors, passed to the grouping primitive as keys and weights.

  function Amount(r: SalesRecord): int { r.salesAmount }

  function StoreOf(r: SalesRecord): string { r.storeId }

  function ProductTypeOf(r: SalesRecord): string { r.productType }

  function LocationOf(r: SalesRecord): string { r.location }
}

=== FILE: seasonal.dfy ===
/** `seasonal_trend_analysis`: sales summed per calendar month and per calendar quarter.
    Grouping on a single `pd.Grouper(key='date', freq=...)` buckets the dates like a resample:
    one row per period from the first period with a sale to the last, periods without a
    sale included with a sum of 0, each row labelled with the last day of its period. */
module Seasonal {
  import opened Calendar
  import opened Records
  import opened Grouping
  import opened Overview

  datatype Frequency = Monthly | Quarterly

  /** Consecutive periods have consecutive indices. */
  function PeriodIndex(f: Frequency, d: Date): int {
    match f
    case Monthly => MonthIndex(d)
    case Quarterly => QuarterIndex(d)
  }

  /** The dates that label a period: the last day of a month, and for quarters a day of
      March, June, September or December. */
  predicate IsPeriodEnd(f: Frequency, d: Date) {
    d.day == DaysInMonth(d.year, d.month) && (f == Quarterly ==> d.month % 3 == 0)
  }

  /** The last day of the period with index t. */
  function PeriodEndAt(f: Frequency, t: int): (e: Date)
    ensures PeriodIndex(f, e) == t
    ensures IsPeriodEnd(f, e)
  {
    match f
    case Monthly => MonthEndAt(t)
    case Quarterly => QuarterEndAt(t)
  }

  /** A period has exactly one label: a period end is determined by its index. */
  lemma PeriodEndDetermined(f: Frequency, d: Date)
    requires IsPeriodEnd(f, d)
    ensures d == PeriodEndAt(f, PeriodIndex(f, d))
  {
    match f {
      case Monthly => MonthEndDetermined(d);
      case Quarterly => QuarterEndDetermined(d);
    }
  }

  /** The label a date is grouped under: the last day of its month or quarter. */
  function PeriodLabel(f: Frequency, d: Date): (e: Date)
    ensures e == PeriodEndAt(f, PeriodIndex(f, d))
    ensures DateLe(d, e)
  {
    match f
    case Monthly => MonthEnd(d)
    case Quarterly => QuarterEnd(d)
  }

  /** The `month` column (`dt.month`) of the monthly trend or the `quarter` column
      (`dt.quarter`) of the quarterly trend. */
  function PeriodNumber(f: Frequency, d: Date): (p: int)
    ensures f == Monthly ==> p == d.month && 1 <= p <= 12
    ensures f == Quarterly ==> 1 <= p <= 4 && 3 * p - 2 <= d.month <= 3 * p
    ensures f == Quarterly && d.month % 3 == 0 ==> d.month == 3 * p
  {
    match f
    case Monthly => d.month
    case Quarterly => QuarterOf(d)
  }

  datatype TrendRow = TrendRow(date: Date, salesAmount: int, period: int)

  function TrendSalesOf(row: TrendRow): int { row.salesAmount }

  function LabelKey(f: Frequency): SalesRecord -> Date {
    (r: SalesRecord) => PeriodLabel(f, r.date)
  }

  function IndexKey(f: Frequency): SalesRecord -> int {
    (r: SalesRecord) => PeriodIndex(f, r.date)
  }

  /** The labels of the n periods starting at index lo. */
  function Labels(f: Frequency, lo: int, n: nat): (ls: seq<Date>)
    ensures |ls| == n
    ensures forall i :: 0 <= i < n ==> ls[i] == PeriodEndAt(f, lo + i)
  {
    seq<Date>(n, i => PeriodEndAt(f, lo + i))
  }

  /** `sum()` of the sales grouped under label l. */
  function PeriodSales(rs: seq<SalesRecord>, f: Frequency, l: Date): int {
    Sum(Values(Group(rs, LabelKey(f), l), Amount))
  }

  /** One row per label, in label order. */
  function TrendRows(rs: seq<SalesRecord>, f: Frequency, ls: seq<Date>): (t: seq<TrendRow>)
    ensures |t| == |ls|
    ensures forall i :: 0 <= i < |ls| ==> t[i] == TrendRow(ls[i], PeriodSales(rs, f, ls[i]), PeriodNumber(f, ls[i]))
  {
    if ls == [] then []
    else [TrendRow(ls[0], PeriodSales(rs, f, ls[0]), PeriodNumber(f, ls[0]))] + TrendRows(rs, f, ls[1..])
  }

  /** The number of periods from the first sale's period to the last sale's period. */
  function PeriodSpan(rs: seq<SalesRecord>, f: Frequency): (n: nat)
    requires |rs| > 0
    ensures n >= 1
  {
    BucketIndexMonotone(EarliestDate(rs), LatestDate(rs));
    PeriodIndex(f, LatestDate(rs)) - PeriodIndex(f, EarliestDate(rs)) + 1
  }

  /** The labels of the periods from the first sale's to the last sale's. */
  function TrendLabels(rs: seq<SalesRecord>, f: Frequency): (ls: seq<Date>)
    requires |rs| > 0
    ensures |ls| == PeriodSpan(rs, f)
    ensures forall i :: 0 <= i < |ls| ==> ls[i] == PeriodEndAt(f, PeriodIndex(f, EarliestDate(rs)) + i)
  {
    Labels(f, PeriodIndex(f, EarliestDate(rs)), PeriodSpan(rs, f))
  }

  /** The trend table at frequency f: one row per period, from the period of the first sale
      to the period of the last sale, consecutive periods in order. */
  function Trend(rs: seq<SalesRecord>, f: Frequency): (t: seq<TrendRow>)
    ensures rs == [] ==> t == []
    ensures rs != [] ==> |t| == PeriodSpan(rs, f)
  {
    if rs == [] then [] else TrendRows(rs, f, TrendLabels(rs, f))
  }

  /** Row i of a trend is labelled with the end of the i-th period after the earliest sale's
      (so consecutive rows are consecutive periods) and holds that period's sales. */
  lemma TrendAt(rs: seq<SalesRecord>, f: Frequency, i: int)
    requires 0 <= i < |Trend(rs, f)|
    ensures rs != []
    ensures PeriodIndex(f, Trend(rs, f)[i].date) == PeriodIndex(f, EarliestDate(rs)) + i
    ensures IsPeriodEnd(f, Trend(rs, f)[i].date)
    ensures Trend(rs, f)[i].salesAmount == PeriodSales(rs, f, Trend(rs, f)[i].date)
    ensures Trend(rs, f)[i].period == PeriodNumber(f, Trend(rs, f)[i].date)
  {
    TrendIsRows(rs, f, i);
  }

  lemma TrendIsRows(rs: seq<SalesRecord>, f: Frequency, i: int)
    requires 0 <= i < |Trend(rs, f)|
    ensures rs != [] && Trend(rs, f)[i] == TrendRows(rs, f, TrendLabels(rs, f))[i]
  {
  }

  /** The first row is the period of the earliest sale and the last row that of the latest. */
  lemma TrendEnds(rs: seq<SalesRecord>, f: Frequency)
    requires rs != []
    ensures Trend(rs, f)[0].date == PeriodLabel(f, EarliestDate(rs))
    ensures Trend(rs, f)[|Trend(rs, f)| - 1].date == PeriodLabel(f, LatestDate(rs))
  {
    TrendFirst(rs, f);
    TrendLast(rs, f);
  }

  lemma TrendFirst(rs: seq<SalesRecord>, f: Frequency)
    requires rs != []
    ensures Trend(rs, f)[0].date == PeriodLabel(f, EarliestDate(rs))
  {
    TrendRowLabel(rs, f, 0, EarliestDate(rs));
  }

  lemma TrendLast(rs: seq<SalesRecord>, f: Frequency)
    requires rs != []
    ensures Trend(rs, f)[|Trend(rs, f)| - 1].date == PeriodLabel(f, LatestDate(rs))
  {
    var last := |Trend(rs, f)| - 1;
    assert PeriodIndex(f, LatestDate(rs)) == PeriodIndex(f, EarliestDate(rs)) + last;
    TrendRowLabel(rs, f, last, LatestDate(rs));
  }

  /** Row i carries the label of every date in the i-th period after the earliest sale's. */
  lemma TrendRowLabel(rs: seq<SalesRecord>, f: Frequency, i: int, d: Date)
    requires rs != [] && 0 <= i < |Trend(rs, f)|
    requires PeriodIndex(f, d) == PeriodIndex(f, EarliestDate(rs)) + i
    ensures Trend(rs, f)[i].date == PeriodLabel(f, d)
  {
    TrendRowIs(rs, f, i, PeriodIndex(f, d));
  }

  /** The label of row i, when its period index is known. */
  lemma TrendRowIs(rs: seq<SalesRecord>, f: Frequency, i: int, t: int)
    requires 0 <= i < |Trend(rs, f)|
    requires rs != [] ==> t == PeriodIndex(f, EarliestDate(rs)) + i
    ensures Trend(rs, f)[i].date == PeriodEndAt(f, t)
  {
    var d := Trend(rs, f)[i].date;
    TrendAt(rs, f, i);
    assert PeriodIndex(f, d) == t && IsPeriodEnd(f, d);
    PeriodEndDetermined(f, d);
  }

  /** Each row is labelled with the last day of its period and numbered with its month
      (1 to 12) or its quarter (1 to 4, the label falling in month 3, 6, 9 or 12). */
  lemma TrendPeriods(rs: seq<SalesRecord>, f: Frequency, i: int)
    requires 0 <= i < |Trend(rs, f)|
    ensures Trend(rs, f)[i].date.day == DaysInMonth(Trend(rs, f)[i].date.year, Trend(rs, f)[i].date.month)
    ensures f == Monthly ==> Trend(rs, f)[i].period == Trend(rs, f)[i].date.month && 1 <= Trend(rs, f)[i].period <= 12
    ensures f == Quarterly ==> Trend(rs, f)[i].date.month == 3 * Trend(rs, f)[i].period && 1 <= Trend(rs, f)[i].period <= 4
  {
    TrendAt(rs, f, i);
  }

  /** `monthly_trend` and `quarterly_trend`. */
  datatype SeasonalTrends = SeasonalTrends(monthlyTrend: seq<TrendRow>, quarterlyTrend: seq<TrendRow>)

  function SeasonalTrendAnalysis(rs: seq<SalesRecord>): (res: SeasonalTrends)
    ensures res.monthlyTrend == Trend(rs, Monthly) && res.quarterlyTrend == Trend(rs, Quarterly)
    ensures rs != [] ==> |res.quarterlyTrend| <= |res.monthlyTrend|
  {
    SeasonalSpans(rs);
    SeasonalTrends(Trend(rs, Monthly), Trend(rs, Quarterly))
  }

  lemma SeasonalSpans(rs: seq<SalesRecord>)
    ensures rs != [] ==> PeriodSpan(rs, Quarterly) <= PeriodSpan(rs, Monthly)
  {
  }

  /** Every sale's period has a row, dated on or after the sale. */
  lemma TrendCovers(rs: seq<SalesRecord>, f: Frequency, i: int)
    requires 0 <= i < |rs|
    ensures exists j :: 0 <= j < |Trend(rs, f)| && Trend(rs, f)[j].date == PeriodLabel(f, rs[i].date)
    ensures DateLe(rs[i].date, PeriodLabel(f, rs[i].date))
  {
    var lo := PeriodIndex(f, EarliestDate(rs));
    BucketIndexMonotone(EarliestDate(rs), rs[i].date);
    BucketIndexMonotone(rs[i].date, LatestDate(rs));
    var j := PeriodIndex(f, rs[i].date) - lo;
    TrendRowIs(rs, f, j, PeriodIndex(f, rs[i].date));
  }

  lemma {:induction false} TrendRowsTotal(rs: seq<SalesRecord>, f: Frequency, ls: seq<Date>)
    ensures Sum(Values(TrendRows(rs, f, ls), TrendSalesOf)) == GroupTotals(rs, LabelKey(f), ls, Amount)
  {
    if ls != [] {
      var t := TrendRows(rs, f, ls);
      assert Values(t, TrendSalesOf) == [t[0].salesAmount] + Values(TrendRows(rs, f, ls[1..]), TrendSalesOf);
      TrendRowsTotal(rs, f, ls[1..]);
    }
  }

  /** Partition invariant: the rows of a trend add up to the total of all sales. */
  lemma TrendTotal(rs: seq<SalesRecord>, f: Frequency)
    ensures Sum(Values(Trend(rs, f), TrendSalesOf)) == Sum(Values(rs, Amount))
  {
    if rs != [] {
      var lo := PeriodIndex(f, EarliestDate(rs));
      var ls := TrendLabels(rs, f);
      forall i, j | 0 <= i < j < |ls| ensures ls[i] != ls[j] {
        assert PeriodIndex(f, ls[i]) == lo + i;
      }
      forall i | 0 <= i < |rs| ensures LabelKey(f)(rs[i]) in ls {
        TrendCovers(rs, f, i);
      }
      TrendRowsTotal(rs, f, ls);
      PartitionTotal(rs, LabelKey(f), ls, Amount);
    }
  }

  lemma {:induction false} LabelGroupIsIndexGroup(rs: seq<SalesRecord>, f: Frequency, t: int)
    ensures Group(rs, LabelKey(f), PeriodEndAt(f, t)) == Group(rs, IndexKey(f), t)
  {
    if rs != [] {
      LabelGroupIsIndexGroup(rs[1..], f, t);
      match f {
        case Monthly => MonthEndSameBucket(rs[0].date, t);
        case Quarterly => QuarterEndSameBucket(rs[0].date, t);
      }
    }
  }

  /** A row's sales are the sales dated within its period, so a period without sales has 0. */
  lemma TrendRowSales(rs: seq<SalesRecord>, f: Frequency, i: int)
    requires 0 <= i < |Trend(rs, f)|
    ensures Trend(rs, f)[i].salesAmount == Sum(Values(Group(rs, IndexKey(f), PeriodIndex(f, Trend(rs, f)[i].date)), Amount))
  {
    var t := PeriodIndex(f, Trend(rs, f)[i].date);
    TrendAt(rs, f, i);
    TrendRowIs(rs, f, i, t);
    LabelGroupIsIndexGroup(rs, f, t);
  }
}

=== FILE: statistics.dfy ===
/** The reductions `mean` and `std` (sample, N - 1 denominator), and pandas'
    default `quantile` (linear interpolation between order statistics).
    The standard deviation is kept squared, as a variance: square roots are not modelled. */
module Statistics {
  import opened Wrappers
  import opened Grouping

  function Mean(xs: seq<int>): (m: real)
    requires |xs| > 0
    ensures m * |xs| as real == Sum(xs) as real
  {
    Sum(xs) as real / |xs| as real
  }

  /** n times the deviation of x from the mean of the n values xs: exact in integers. */
  function ScaledDeviation(x: int, xs: seq<int>): int {
    |xs| * x - Sum(xs)
  }

  /** The sum of the squared deviations from the mean, times n * n: exact in integers. */
  function ScaledSquaredDeviations(xs: seq<int>): (s: int)
    ensures s >= 0
  {
    SquaresAround(xs, xs)
  }

  /** The sum over the values ys of their squared scaled deviations within the sample xs. */
  function SquaresAround(ys: seq<int>, xs: seq<int>): (s: int)
    ensures s >= 0
  {
    if ys == [] then 0
    else ScaledDeviation(ys[0], xs) * ScaledDeviation(ys[0], xs) + SquaresAround(ys[1..], xs)
  }

  /** The square of `std()` (N - 1 denominator): undefined (NaN) for fewer than two values. */
  function SampleVariance(xs: seq<int>): (v: Option<real>)
    ensures v.Some? <==> |xs| >= 2
    ensures v.Some? ==> v.value >= 0.0
    ensures v.Some? ==> (v.value == 0.0 <==> ScaledSquaredDeviations(xs) == 0)
  {
    if |xs| < 2 then None
    else Some(VarianceFrom(|xs|, ScaledSquaredDeviations(xs)))
  }

  /** The sample variance of k values whose squared deviations, scaled by k * k, add up to ssd. */
  function VarianceFrom(k: int, ssd: int): real
    requires k >= 2
  {
    ssd as real / (k * k * (k - 1)) as real
  }

  /** The sum of the squared distances of the values ys from m: the numerator of the variance. */
  function SquaredDeviations(ys: seq<int>, m: real): real {
    if ys == [] then 0.0
    else (ys[0] as real - m) * (ys[0] as real - m) + SquaredDeviations(ys[1..], m)
  }

  /** Converting a product of integers to a real is the product of the converted factors. */
  lemma CastProduct(a: int, b: int)
    ensures (a * b) as real == a as real * b as real
  {
  }

  /** A scaled deviation is n times the distance from the mean. */
  lemma ScaledDeviationFromMean(y: int, xs: seq<int>)
    requires |xs| > 0
    ensures ScaledDeviation(y, xs) as real == |xs| as real * (y as real - Mean(xs))
  {
    CastProduct(|xs|, y);
  }

  /** One step of the sum of squares: a term d * d with d = k * e, added to a rest that is
      k * k times r, is k * k times e * e + r. */
  lemma SquareStep(d: int, k: int, e: real, rest: int, r: real)
    requires d as real == k as real * e && rest as real == (k * k) as real * r
    ensures (d * d + rest) as real == (k * k) as real * (e * e + r)
  {
    CastProduct(d, d);
    CastProduct(k, k);
    assert (d * d) as real == (k as real * k as real) * (e * e);
  }

  /** Scaled by n * n, the integer sum of squares is the sum of squared distances from the mean. */
  lemma {:induction false} SquaresAroundMean(ys: seq<int>, xs: seq<int>)
    requires |xs| > 0
    ensures SquaresAround(ys, xs) as real == (|xs| * |xs|) as real * SquaredDeviations(ys, Mean(xs))
  {
    if ys != [] {
      var m := Mean(xs);
      var d, e := ScaledDeviation(ys[0], xs), ys[0] as real - m;
      var rest, r := SquaresAround(ys[1..], xs), SquaredDeviations(ys[1..], m);
      SquaresAroundMean(ys[1..], xs);
      ScaledDeviationFromMean(ys[0], xs);
      SquareStep(d, |xs|, e, rest, r);
      assert SquaresAround(ys, xs) == d * d + rest;
      assert SquaredDeviations(ys, m) == e * e + r;
    }
  }

  /** The variance computed from ssd = k * k * r, times k - 1, is r. */
  lemma VarianceTimes(k: int, ssd: int, r: real)
    requires k >= 2 && ssd as real == (k * k) as real * r
    ensures VarianceFrom(k, ssd) * (k - 1) as real == r
  {
    var a, c := (k * k) as real, (k - 1) as real;
    CastProduct(k * k, k - 1);
    assert VarianceFrom(k, ssd) == (a * r) / (a * c);
    assert (a * r) / (a * c) == r / c;
  }

  /** The sample variance times n - 1 is the sum of the squared distances from the mean. */
  lemma SampleVarianceValue(xs: seq<int>)
    requires |xs| >= 2
    ensures SampleVariance(xs).value * (|xs| - 1) as real == SquaredDeviations(xs, Mean(xs))
  {
    SquaresAroundMean(xs, xs);
    assert SampleVariance(xs).value == VarianceFrom(|xs|, ScaledSquaredDeviations(xs));
    VarianceTimes(|xs|, ScaledSquaredDeviations(xs), SquaredDeviations(xs, Mean(xs)));
  }

  predicate AllEqual(xs: seq<int>) {
    forall i, j :: 0 <= i < |xs| && 0 <= j < |xs| ==> xs[i] == xs[j]
  }

  lemma {:induction false} SquaresAroundZero(ys: seq<int>, xs: seq<int>)
    ensures SquaresAround(ys, xs) == 0 <==> forall i :: 0 <= i < |ys| ==> ScaledDeviation(ys[i], xs) == 0
  {
    if ys != [] {
      SquaresAroundZero(ys[1..], xs);
      assert forall i :: 1 <= i < |ys| ==> ys[i] == ys[1..][i - 1];
      var d := ScaledDeviation(ys[0], xs);
      if d != 0 {
        assert d * d > 0;
      }
    }
  }

  lemma {:induction false} SumOfConstant(xs: seq<int>, c: int)
    requires forall i :: 0 <= i < |xs| ==> xs[i] == c
    ensures Sum(xs) == |xs| * c
  {
    if xs != [] {
      SumOfConstant(xs[1..], c);
    }
  }

  /** Two different values cannot both sit exactly at the mean. */
  lemma NonZeroDeviation(n: int, a: int, b: int, sum: int)
    requires n > 0 && a != b
    ensures n * a - sum != 0 || n * b - sum != 0
  {
    assert n * a - n * b == n * (a - b);
  }

  /** A group of at least two values has zero variance exactly when all its values are equal. */
  lemma ZeroVarianceIffConstant(xs: seq<int>)
    requires |xs| >= 2
    ensures SampleVariance(xs).value == 0.0 <==> AllEqual(xs)
  {
    SquaresAroundZero(xs, xs);
    assert SampleVariance(xs).value == 0.0 <==> SquaresAround(xs, xs) == 0;
    if AllEqual(xs) {
      SumOfConstant(xs, xs[0]);
      forall i | 0 <= i < |xs| ensures ScaledDeviation(xs[i], xs) == 0 {
        assert xs[i] == xs[0];
      }
    } else {
      var i, j :| 0 <= i < |xs| && 0 <= j < |xs| && xs[i] != xs[j];
      NonZeroDeviation(|xs|, xs[i], xs[j], Sum(xs));
    }
  }

  // ---- quantile ----

  predicate Ascending(v: seq<real>) {
    forall i, j :: 0 <= i <= j < |v| ==> v[i] <= v[j]
  }

  /** Inserting x before the first value not below it. */
  function InsertAscending(x: real, v: seq<real>): (r: seq<real>)
    ensures |r| == |v| + 1
  {
    if v == [] || x <= v[0] then [x] + v else [v[0]] + InsertAscending(x, v[1..])
  }

  /** Insertion adds exactly x. */
  lemma {:induction false} InsertPermutes(x: real, v: seq<real>)
    ensures multiset(InsertAscending(x, v)) == multiset(v) + multiset{x}
  {
    if v != [] && x > v[0] {
      InsertPermutes(x, v[1..]);
      assert v == [v[0]] + v[1..];
    }
  }

  /** Every value after insertion is at least x or at least the old first value. */
  lemma {:induction false} InsertBound(x: real, v: seq<real>)
    requires Ascending(v)
    ensures forall i :: 0 <= i < |v| + 1 ==> x <= InsertAscending(x, v)[i] || (v != [] && v[0] <= InsertAscending(x, v)[i])
  {
    if v != [] && x > v[0] {
      assert Ascending(v[1..]);
      InsertBound(x, v[1..]);
    }
  }

  /** Insertion keeps a sequence ascending. */
  lemma {:induction false} InsertSorted(x: real, v: seq<real>)
    requires Ascending(v)
    ensures Ascending(InsertAscending(x, v))
  {
    if v != [] && x > v[0] {
      assert Ascending(v[1..]);
      InsertSorted(x, v[1..]);
      InsertBound(x, v[1..]);
    }
  }

  /** The values sorted ascending: the order statistics. */
  function SortAscending(xs: seq<real>): (v: seq<real>)
    ensures Ascending(v)
    ensures |v| == |xs|
    ensures multiset(v) == multiset(xs)
  {
    if xs == [] then []
    else
      assert xs == [xs[0]] + xs[1..];
      InsertSorted(xs[0], SortAscending(xs[1..]));
      InsertPermutes(xs[0], SortAscending(xs[1..]));
      InsertAscending(xs[0], SortAscending(xs[1..]))
  }

  /** The product a * f, named so that the interpolation position (k - 1) * q appears as one term
      in the quantile lemmas, where the solver otherwise expands the product. */
  function Scale(a: real, f: real): real {
    a * f
  }

  /** A fraction of a non-negative quantity lies between zero and that quantity; a larger fraction gives more. */
  lemma Fraction(a: real, f1: real, f2: real)
    requires a >= 0.0 && 0.0 <= f1 <= f2 <= 1.0
    ensures 0.0 <= Scale(a, f1) <= Scale(a, f2) <= a
  {
    assert a * f2 - a * f1 == a * (f2 - f1);
    assert a - a * f2 == a * (1.0 - f2);
  }

  /** The integer part of the interpolation position (k - 1) * q: an index of a sample of k values. */
  function LowerIndex(k: nat, q: real): (lo: nat)
    requires k > 0 && 0.0 <= q <= 1.0
    ensures lo < k
    ensures lo as real <= Scale((k - 1) as real, q) < lo as real + 1.0
  {
    Fraction((k - 1) as real, q, q);
    Scale((k - 1) as real, q).Floor
  }

  /** The point a fraction f of the way from a to b. */
  function Lerp(a: real, b: real, f: real): (r: real)
    requires a <= b && 0.0 <= f <= 1.0
    ensures a <= r <= b
  {
    Fraction(b - a, f, 1.0);
    a + Scale(b - a, f)
  }

  lemma LerpMonotone(a: real, b: real, f1: real, f2: real)
    requires a <= b && 0.0 <= f1 <= f2 <= 1.0
    ensures Lerp(a, b, f1) <= Lerp(a, b, f2)
  {
    Fraction(b - a, f1, f2);
  }

  /** Linear interpolation at position (k - 1) * q of k ascending values. */
  function Interpolate(v: seq<real>, q: real): (r: real)
    requires |v| > 0 && 0.0 <= q <= 1.0 && Ascending(v)
    ensures var lo := LowerIndex(|v|, q); v[lo] <= r && (lo + 1 < |v| ==> r <= v[lo + 1])
    ensures v[0] <= r <= v[|v| - 1]
  {
    var lo := LowerIndex(|v|, q);
    if lo + 1 < |v| then Lerp(v[lo], v[lo + 1], Scale((|v| - 1) as real, q) - lo as real) else v[lo]
  }

  /** `Series.quantile(q)` of a non-empty series, with pandas' default interpolation. */
  function Quantile(xs: seq<real>, q: real): (r: real)
    requires |xs| > 0 && 0.0 <= q <= 1.0
    ensures SortAscending(xs)[0] <= r <= SortAscending(xs)[|xs| - 1]
  {
    Interpolate(SortAscending(xs), q)
  }

  /** At a whole-number position (k - 1) * q == j nothing is interpolated: the result is the
      j-th order statistic itself. */
  lemma InterpolateAtIndex(v: seq<real>, q: real, j: nat)
    requires |v| > 0 && 0.0 <= q <= 1.0 && Ascending(v)
    requires j < |v| && Scale((|v| - 1) as real, q) == j as real
    ensures Interpolate(v, q) == v[j]
  {
    assert LowerIndex(|v|, q) == j;
    if j + 1 < |v| {
      assert Scale(v[j + 1] - v[j], 0.0) == 0.0;
    }
  }

  /** Between two neighbouring order statistics the quantile moves linearly with the position:
      a fraction f of the way from position j to position j + 1 gives the value a fraction f
      of the way from v[j] to v[j + 1]. */
  lemma InterpolateBetween(v: seq<real>, q: real, j: nat, f: real)
    requires |v| > 0 && 0.0 <= q <= 1.0 && Ascending(v)
    requires j + 1 < |v| && 0.0 <= f < 1.0 && Scale((|v| - 1) as real, q) == j as real + f
    ensures Interpolate(v, q) == Lerp(v[j], v[j + 1], f)
  {
    assert LowerIndex(|v|, q) == j;
  }

  /** The quantile at a whole-number position is an order statistic. */
  lemma QuantileAtIndex(xs: seq<real>, q: real, j: nat)
    requires |xs| > 0 && 0.0 <= q <= 1.0
    requires j < |xs| && Scale((|xs| - 1) as real, q) == j as real
    ensures Quantile(xs, q) == SortAscending(xs)[j]
  {
    InterpolateAtIndex(SortAscending(xs), q, j);
  }

  lemma InsertExample()
    ensures InsertAscending(900.0, [100.0, 200.0]) == [100.0, 200.0, 900.0]
  {
    assert [100.0, 200.0][1..] == [200.0] && [200.0][1..] == [];
    assert InsertAscending(900.0, [200.0]) == [200.0, 900.0];
  }

  /** Between two neighbouring order statistics the quantile is their linear interpolation. */
  lemma QuantileBetween(xs: seq<real>, q: real, j: nat, f: real)
    requires |xs| > 0 && 0.0 <= q <= 1.0
    requires j + 1 < |xs| && 0.0 <= f < 1.0 && Scale((|xs| - 1) as real, q) == j as real + f
    ensures Quantile(xs, q) == Lerp(SortAscending(xs)[j], SortAscending(xs)[j + 1], f)
  {
    InterpolateBetween(SortAscending(xs), q, j, f);
  }

  /** The order statistics of 900, 100 and 200. */
  lemma SortExample()
    ensures SortAscending([900.0, 100.0, 200.0]) == [100.0, 200.0, 900.0]
  {
    var xs := [900.0, 100.0, 200.0];
    assert SortAscending([100.0, 200.0]) == [100.0, 200.0] by {
      assert [100.0, 200.0][1..] == [200.0] && [200.0][1..] == [];
    }
    assert xs[1..] == [100.0, 200.0];
    InsertExample();
  }

  /** The quartile and decile of 100, 200 and 900: position 0.5 lies halfway from 100 to 200
      and position 0.2 a fifth of the way, so the values are 150 and 120, where the lower
      order statistic would give 100; the median is 200. */
  lemma QuantileExample()
    ensures Quantile([900.0, 100.0, 200.0], 0.25) == 150.0
    ensures Quantile([900.0, 100.0, 200.0], 0.1) == 120.0
    ensures Quantile([900.0, 100.0, 200.0], 0.5) == 200.0
  {
    var xs := [900.0, 100.0, 200.0];
    SortExample();
    var v := SortAscending(xs);
    assert v[0] == 100.0 && v[1] == 200.0;
    assert Scale(2.0, 0.25) == 0.5 && Scale(2.0, 0.1) == 0.2 && Scale(2.0, 0.5) == 1.0;
    QuantileBetween(xs, 0.25, 0, 0.5);
    assert Lerp(100.0, 200.0, 0.5) == 150.0;
    QuantileBetween(xs, 0.1, 0, 0.2);
    assert Lerp(100.0, 200.0, 0.2) == 120.0;
    QuantileAtIndex(xs, 0.5, 1);
  }

  lemma AscendingBounds(xs: seq<real>)
    requires |xs| > 0
    ensures forall x :: x in xs ==> SortAscending(xs)[0] <= x <= SortAscending(xs)[|xs| - 1]
    ensures SortAscending(xs)[0] in xs && SortAscending(xs)[|xs| - 1] in xs
  {
    var v := SortAscending(xs);
    forall x | x in xs ensures v[0] <= x <= v[|xs| - 1] {
      assert x in multiset(xs);
      assert x in multiset(v);
    }
    assert v[0] in multiset(v) && v[|v| - 1] in multiset(v);
  }

  /** Raising q never lowers the interpolated value. */
  lemma InterpolateMonotone(v: seq<real>, q1: real, q2: real)
    requires |v| > 0 && 0.0 <= q1 <= q2 <= 1.0 && Ascending(v)
    ensures Interpolate(v, q1) <= Interpolate(v, q2)
  {
    var k := (|v| - 1) as real;
    Fraction(k, q1, q2);
    var lo1, lo2 := LowerIndex(|v|, q1), LowerIndex(|v|, q2);
    assert lo1 <= lo2;
    if lo1 == lo2 {
      if lo1 + 1 < |v| {
        LerpMonotone(v[lo1], v[lo1 + 1], Scale(k, q1) - lo1 as real, Scale(k, q2) - lo2 as real);
      }
    } else {
      assert v[lo1 + 1] <= v[lo2];
    }
  }

  lemma QuantileMonotone(xs: seq<real>, q1: real, q2: real)
    requires |xs| > 0 && 0.0 <= q1 <= q2 <= 1.0
    ensures Quantile(xs, q1) <= Quantile(xs, q2)
  {
    InterpolateMonotone(SortAscending(xs), q1, q2);
  }

  /** The quantile at 0 is the minimum of the values and the quantile at 1 their maximum. */
  lemma QuantileExtremes(xs: seq<real>)
    requires |xs| > 0
    ensures Quantile(xs, 0.0) in xs && forall x :: x in xs ==> Quantile(xs, 0.0) <= x
    ensures Quantile(xs, 1.0) in xs && forall x :: x in xs ==> x <= Quantile(xs, 1.0)
  {
    AscendingBounds(xs);
    QuantileAtIndex(xs, 0.0, 0);
    QuantileAtIndex(xs, 1.0, |xs| - 1);
  }
}

=== FILE: stores.dfy ===
/** `top_performing_stores` and `struggling_stores`. */
module Stores {
  import opened Wrappers
  import opened StringOrder
  import opened Calendar
  import opened Records
  import opened Grouping
  import opened Statistics
  import opened Tables
  import opened Ranking

  /** The per-store table: total, mean and count of sales, one row per store. */
  function StorePerformance(rs: seq<SalesRecord>): (t: seq<GroupSummary>)
    ensures |t| == |SortedKeys(rs, StoreOf)|
    ensures forall i :: 0 <= i < |rs| ==> rs[i].storeId in KeysOf(t)
  {
    SummariesKeys(rs, StoreOf);
    Summaries(rs, StoreOf)
  }

  /** `nlargest(n, 'total_sales')` of the per-store table. */
  function TopPerformingStores(rs: seq<SalesRecord>, n: int): (top: seq<GroupSummary>)
    ensures |top| == Take(n, |SortedKeys(rs, StoreOf)|)
    ensures forall x :: x in top ==> x in StorePerformance(rs)
    ensures forall i, j :: 0 <= i < j < |top| ==>
              top[i].totalSales > top[j].totalSales
              || (top[i].totalSales == top[j].totalSales && StrLess(top[i].key, top[j].key))
    ensures forall x, y :: x in top && y in StorePerformance(rs) && y !in top ==> y.totalSales <= x.totalSales
    ensures forall x, y :: x in top && y in StorePerformance(rs) && y !in top ==> Precedes(Largest, x, y)
  {
    var t := StorePerformance(rs);
    SummariesUniqueKeys(rs, StoreOf);
    SelectByTotal(Largest, t, n);
    Select(Largest, t, n)
  }

  // ---- struggling stores ----

  /** One row of the (month end, store) table built at the first stage. */
  datatype MonthlyStoreSales = MonthlyStoreSales(monthEnd: Date, storeId: string, salesAmount: int)

  function MonthAndStore(r: SalesRecord): (Date, string) { (MonthEnd(r.date), r.storeId) }

  function MonthlyStoreOf(m: MonthlyStoreSales): string { m.storeId }

  function MonthlySalesOf(m: MonthlyStoreSales): int { m.salesAmount }

  /** The sales of one (month end, store) pair. */
  function PairSales(rs: seq<SalesRecord>, k: (Date, string)): int {
    Sum(Values(Group(rs, MonthAndStore, k), Amount))
  }

  function MonthlyRows(rs: seq<SalesRecord>, ks: seq<(Date, string)>): (t: seq<MonthlyStoreSales>)
    ensures |t| == |ks|
    ensures forall i :: 0 <= i < |ks| ==> t[i].monthEnd == ks[i].0 && t[i].storeId == ks[i].1
    ensures forall i :: 0 <= i < |ks| ==> t[i].salesAmount == PairSales(rs, ks[i])
  {
    if ks == [] then []
    else [MonthlyStoreSales(ks[0].0, ks[0].1, PairSales(rs, ks[0]))] + MonthlyRows(rs, ks[1..])
  }

  /** Sales summed per observed (month end, store) pair. Only pairs with at least one sale
      get a row: unobserved category combinations are not materialised. */
  function MonthlyStoreTable(rs: seq<SalesRecord>): (t: seq<MonthlyStoreSales>)
    ensures |t| <= |rs|
    ensures forall i, j :: 0 <= i < j < |t| ==> PairOf(t[i]) != PairOf(t[j])
    ensures forall i :: 0 <= i < |t| ==> t[i].salesAmount == PairSales(rs, PairOf(t[i]))
  {
    MonthlyRows(rs, DistinctKeys(rs, MonthAndStore))
  }

  /** The (month end, store) pair of a row of the monthly table. */
  function PairOf(m: MonthlyStoreSales): (Date, string) { (m.monthEnd, m.storeId) }

  /** Every record's (month end, store) pair has a row of the monthly table. */
  lemma MonthlyStoreTableCovers(rs: seq<SalesRecord>, i: nat)
    requires i < |rs|
    ensures exists j :: 0 <= j < |MonthlyStoreTable(rs)|
              && MonthlyStoreTable(rs)[j].storeId == rs[i].storeId
              && MonthlyStoreTable(rs)[j].monthEnd == MonthEnd(rs[i].date)
  {
    var ks := DistinctKeys(rs, MonthAndStore);
    var j :| 0 <= j < |ks| && ks[j] == MonthAndStore(rs[i]);
    assert MonthlyStoreTable(rs)[j].storeId == rs[i].storeId;
  }

  /** Every row of the monthly table is the (month end, store) pair of some record. */
  lemma MonthlyStoreTableObserved(rs: seq<SalesRecord>, j: nat)
    requires j < |MonthlyStoreTable(rs)|
    ensures exists i :: 0 <= i < |rs|
              && MonthlyStoreTable(rs)[j].storeId == rs[i].storeId
              && MonthlyStoreTable(rs)[j].monthEnd == MonthEnd(rs[i].date)
  {
    var ks := DistinctKeys(rs, MonthAndStore);
    assert ks[j] in ks;
    var i :| 0 <= i < |rs| && MonthAndStore(rs[i]) == ks[j];
    assert MonthlyStoreTable(rs)[j].storeId == rs[i].storeId;
  }

  /** The records of store s in pair k: all of pair k's records when k is a pair of store s,
      none otherwise. */
  lemma PairWithinStore(rs: seq<SalesRecord>, s: string, k: (Date, string))
    ensures Group(Group(rs, StoreOf, s), MonthAndStore, k) == if k.1 == s then Group(rs, MonthAndStore, k) else []
  {
    if k.1 == s {
      GroupOfGroup(rs, StoreOf, s, MonthAndStore, k);
    } else {
      GroupNone(Group(rs, StoreOf, s), MonthAndStore, k);
    }
  }

  lemma {:induction false} MonthlyRowsOfStore(rs: seq<SalesRecord>, ks: seq<(Date, string)>, s: string)
    ensures Sum(MonthlySalesOfStore(MonthlyRows(rs, ks), s)) == GroupTotals(Group(rs, StoreOf, s), MonthAndStore, ks, Amount)
  {
    if ks != [] {
      var t := MonthlyRows(rs, ks);
      MonthlyRowsOfStore(rs, ks[1..], s);
      assert t[1..] == MonthlyRows(rs, ks[1..]);
      PairWithinStore(rs, s, ks[0]);
      if ks[0].1 == s {
        assert Group(t, MonthlyStoreOf, s) == [t[0]] + Group(t[1..], MonthlyStoreOf, s);
        var rest := MonthlySalesOfStore(t[1..], s);
        assert MonthlySalesOfStore(t, s) == [t[0].salesAmount] + rest;
        assert ([t[0].salesAmount] + rest)[1..] == rest;
      } else {
        assert Group(t, MonthlyStoreOf, s) == Group(t[1..], MonthlyStoreOf, s);
      }
    }
  }

  /** A store's monthly sums add up to the store's total sales. */
  lemma MonthlySumsOfStore(rs: seq<SalesRecord>, s: string)
    ensures Sum(MonthlySalesOfStore(MonthlyStoreTable(rs), s)) == Sum(Values(Group(rs, StoreOf, s), Amount))
  {
    var ks := DistinctKeys(rs, MonthAndStore);
    var g := Group(rs, StoreOf, s);
    MonthlyRowsOfStore(rs, ks, s);
    StorePairsListed(rs, s);
    PartitionTotal(g, MonthAndStore, ks, Amount);
  }

  lemma StorePairsListed(rs: seq<SalesRecord>, s: string)
    ensures forall i :: 0 <= i < |Group(rs, StoreOf, s)| ==>
              MonthAndStore(Group(rs, StoreOf, s)[i]) in DistinctKeys(rs, MonthAndStore)
  {
    var g := Group(rs, StoreOf, s);
    GroupMembers(rs, StoreOf, s);
    forall i | 0 <= i < |g| ensures MonthAndStore(g[i]) in DistinctKeys(rs, MonthAndStore) {
      assert g[i] in rs;
      var j :| 0 <= j < |rs| && rs[j] == g[i];
    }
  }

  lemma {:induction false} MonthlyRowsTotal(rs: seq<SalesRecord>, ks: seq<(Date, string)>)
    ensures Sum(Values(MonthlyRows(rs, ks), MonthlySalesOf)) == GroupTotals(rs, MonthAndStore, ks, Amount)
  {
    if ks != [] {
      MonthlyRowsTotal(rs, ks[1..]);
      assert MonthlyRows(rs, ks) == [MonthlyRows(rs, ks)[0]] + MonthlyRows(rs, ks[1..]);
    }
  }

  /** The monthly per-store sums add up to the overall total. */
  lemma MonthlyStoreTableTotal(rs: seq<SalesRecord>)
    ensures Sum(Values(MonthlyStoreTable(rs), MonthlySalesOf)) == Sum(Values(rs, Amount))
  {
    MonthlyRowsTotal(rs, DistinctKeys(rs, MonthAndStore));
    PartitionTotal(rs, MonthAndStore, DistinctKeys(rs, MonthAndStore), Amount);
  }

  /** The distinct month ends of the records of store s. */
  function StoreMonths(rs: seq<SalesRecord>, s: string): set<Date> {
    set r | r in rs && r.storeId == s :: MonthEnd(r.date)
  }

  /** A store has one monthly sum per distinct month end among its records. */
  lemma MonthlyCountOfStore(rs: seq<SalesRecord>, s: string)
    ensures |MonthlySalesOfStore(MonthlyStoreTable(rs), s)| == |StoreMonths(rs, s)|
  {
    var t := MonthlyStoreTable(rs);
    var g := Group(t, MonthlyStoreOf, s);
    GroupDistinct(t, MonthlyStoreOf, s, PairOf);
    var ms := seq(|g|, i requires 0 <= i < |g| => g[i].monthEnd);
    assert NoDuplicates(ms) by {
      forall i, j | 0 <= i < j < |ms| ensures ms[i] != ms[j] {
        assert PairOf(g[i]) != PairOf(g[j]);
      }
    }
    NoDuplicatesCardinality(ms);
    StoreMonthsListed(rs, s, ms);
    assert |Elements(ms)| == |ms|;
    assert Elements(ms) == StoreMonths(rs, s);
    assert |StoreMonths(rs, s)| == |ms|;
    assert |MonthlySalesOfStore(t, s)| == |g|;
  }

  lemma StoreMonthsListed(rs: seq<SalesRecord>, s: string, ms: seq<Date>)
    requires var g := Group(MonthlyStoreTable(rs), MonthlyStoreOf, s);
             |ms| == |g| && forall i :: 0 <= i < |g| ==> ms[i] == g[i].monthEnd
    ensures Elements(ms) == StoreMonths(rs, s)
  {
    forall d | d in ms ensures exists r :: r in rs && r.storeId == s && MonthEnd(r.date) == d {
      var i :| 0 <= i < |ms| && ms[i] == d;
      StoreMonthObserved(rs, s, i);
    }
    forall r | r in rs && r.storeId == s ensures MonthEnd(r.date) in ms {
      var k :| 0 <= k < |rs| && rs[k] == r;
      var i := StoreMonthListed(rs, s, k);
      assert ms[i] == MonthEnd(r.date);
    }
  }

  /** A month end of a store's rows of the monthly table is the month end of one of its records. */
  lemma StoreMonthObserved(rs: seq<SalesRecord>, s: string, i: nat)
    requires i < |Group(MonthlyStoreTable(rs), MonthlyStoreOf, s)|
    ensures exists r :: r in rs && r.storeId == s && MonthEnd(r.date) == Group(MonthlyStoreTable(rs), MonthlyStoreOf, s)[i].monthEnd
  {
    var t := MonthlyStoreTable(rs);
    var g := Group(t, MonthlyStoreOf, s);
    GroupMemberIn(t, MonthlyStoreOf, s, g[i]);
    var j :| 0 <= j < |t| && t[j] == g[i];
    MonthlyStoreTableObserved(rs, j);
    var k :| 0 <= k < |rs| && t[j].storeId == rs[k].storeId && t[j].monthEnd == MonthEnd(rs[k].date);
    assert rs[k] in rs;
  }

  /** The month end of each record of a store has a row of the store in the monthly table. */
  lemma StoreMonthListed(rs: seq<SalesRecord>, s: string, k: nat) returns (i: nat)
    requires k < |rs| && rs[k].storeId == s
    ensures i < |Group(MonthlyStoreTable(rs), MonthlyStoreOf, s)|
    ensures Group(MonthlyStoreTable(rs), MonthlyStoreOf, s)[i].monthEnd == MonthEnd(rs[k].date)
  {
    var t := MonthlyStoreTable(rs);
    var g := Group(t, MonthlyStoreOf, s);
    MonthlyStoreTableCovers(rs, k);
    var j :| 0 <= j < |t| && t[j].storeId == s && t[j].monthEnd == MonthEnd(rs[k].date);
    assert t[j] in t;
    i := GroupMemberOf(t, MonthlyStoreOf, s, t[j]);
  }

  /** A store's mean monthly sales and the square of their sample standard deviation
      (`sales_volatility`), which is undefined for a store seen in a single month. */
  datatype StoreVolatility = StoreVolatility(storeId: string, avgMonthlySales: real, monthlyVariance: Option<real>)

  /** The monthly sums of one store, as recorded in the monthly table. */
  function MonthlySalesOfStore(m: seq<MonthlyStoreSales>, s: string): seq<int> {
    Values(Group(m, MonthlyStoreOf, s), MonthlySalesOf)
  }

  function VolatilityRows(m: seq<MonthlyStoreSales>, ks: seq<string>): (t: seq<StoreVolatility>)
    requires AllObserved(m, MonthlyStoreOf, ks)
    ensures |t| == |ks|
    ensures forall i :: 0 <= i < |ks| ==> t[i].storeId == ks[i]
    ensures forall i :: 0 <= i < |ks| ==>
              |MonthlySalesOfStore(m, ks[i])| > 0
              && t[i].avgMonthlySales == Mean(MonthlySalesOfStore(m, ks[i]))
              && t[i].monthlyVariance == SampleVariance(MonthlySalesOfStore(m, ks[i]))
  {
    if ks == [] then []
    else
      var monthly := MonthlySalesOfStore(m, ks[0]);
      [StoreVolatility(ks[0], Mean(monthly), SampleVariance(monthly))] + VolatilityRows(m, ks[1..])
  }

  /** The second stage: the monthly table grouped by store, one row per store in store order. */
  function StoreVolatilityTable(rs: seq<SalesRecord>): (t: seq<StoreVolatility>)
    ensures forall i, j :: 0 <= i < j < |t| ==> StrLess(t[i].storeId, t[j].storeId)
  {
    var m := MonthlyStoreTable(rs);
    SortedKeysObserved(m, MonthlyStoreOf);
    VolatilityRows(m, SortedKeys(m, MonthlyStoreOf))
  }

  /** Every store that has a record gets a row. */
  lemma StoreVolatilityCovers(rs: seq<SalesRecord>, i: nat)
    requires i < |rs|
    ensures exists j :: 0 <= j < |StoreVolatilityTable(rs)| && StoreVolatilityTable(rs)[j].storeId == rs[i].storeId
  {
    var m := MonthlyStoreTable(rs);
    var ks := SortedKeys(m, MonthlyStoreOf);
    MonthlyStoreTableCovers(rs, i);
    var k :| 0 <= k < |m| && m[k].storeId == rs[i].storeId && m[k].monthEnd == MonthEnd(rs[i].date);
    assert MonthlyStoreOf(m[k]) in ks;
    var j :| 0 <= j < |ks| && ks[j] == MonthlyStoreOf(m[k]);
    assert StoreVolatilityTable(rs)[j].storeId == rs[i].storeId;
  }

  /** Every row of the per-store table built from a monthly table m names a store of some row of m. */
  lemma VolatilityRowObserved(m: seq<MonthlyStoreSales>, j: nat)
    requires AllObserved(m, MonthlyStoreOf, SortedKeys(m, MonthlyStoreOf))
    requires j < |VolatilityRows(m, SortedKeys(m, MonthlyStoreOf))|
    ensures exists k :: 0 <= k < |m| && m[k].storeId == VolatilityRows(m, SortedKeys(m, MonthlyStoreOf))[j].storeId
  {
    var ks := SortedKeys(m, MonthlyStoreOf);
    assert ks[j] in ks;
    var k :| 0 <= k < |m| && MonthlyStoreOf(m[k]) == ks[j];
  }

  /** Every row belongs to a store that has a record. */
  lemma StoreVolatilityObserved(rs: seq<SalesRecord>, j: nat)
    requires j < |StoreVolatilityTable(rs)|
    ensures exists i :: 0 <= i < |rs| && StoreVolatilityTable(rs)[j].storeId == rs[i].storeId
  {
    var m := MonthlyStoreTable(rs);
    SortedKeysObserved(m, MonthlyStoreOf);
    VolatilityRowObserved(m, j);
    var k :| 0 <= k < |m| && m[k].storeId == StoreVolatilityTable(rs)[j].storeId;
    MonthlyStoreTableObserved(rs, k);
  }

  /** The `avg_monthly_sales` column. */
  function AvgMonthlySales(t: seq<StoreVolatility>): (ms: seq<real>)
    ensures |ms| == |t|
    ensures forall i :: 0 <= i < |t| ==> ms[i] == t[i].avgMonthlySales
  {
    if t == [] then [] else [t[0].avgMonthlySales] + AvgMonthlySales(t[1..])
  }

  /** The rows whose mean monthly sales are at or below the threshold, in table order. */
  function AtOrBelow(t: seq<StoreVolatility>, threshold: real): (r: seq<StoreVolatility>)
    ensures |r| <= |t|
    ensures forall x :: x in r <==> x in t && x.avgMonthlySales <= threshold
  {
    if t == [] then []
    else (if t[0].avgMonthlySales <= threshold then [t[0]] else []) + AtOrBelow(t[1..], threshold)
  }

  datatype AnalysisError = PercentileOutOfRange(percentile: real)

  /** The threshold of `struggling_stores`: the p/100 quantile of the stores' mean monthly sales. */
  function StrugglingThreshold(t: seq<StoreVolatility>, thresholdPercentile: real): (r: real)
    requires t != [] && 0.0 <= thresholdPercentile <= 100.0
    ensures exists i :: 0 <= i < |t| && t[i].avgMonthlySales <= r
    ensures exists i :: 0 <= i < |t| && r <= t[i].avgMonthlySales
  {
    var r := Quantile(AvgMonthlySales(t), thresholdPercentile / 100.0);
    QuantileWithinMeans(t, thresholdPercentile / 100.0);
    r
  }

  /** A quantile of the means lies between the smallest and the largest of them. */
  lemma QuantileWithinMeans(t: seq<StoreVolatility>, q: real)
    requires t != [] && 0.0 <= q <= 1.0
    ensures exists i :: 0 <= i < |t| && t[i].avgMonthlySales <= Quantile(AvgMonthlySales(t), q)
    ensures exists i :: 0 <= i < |t| && Quantile(AvgMonthlySales(t), q) <= t[i].avgMonthlySales
  {
    var ms := AvgMonthlySales(t);
    AscendingBounds(ms);
    var v := SortAscending(ms);
    var i :| 0 <= i < |ms| && ms[i] == v[0];
    var j :| 0 <= j < |ms| && ms[j] == v[|ms| - 1];
    assert t[i].avgMonthlySales <= Quantile(ms, q) <= t[j].avgMonthlySales;
  }

  /** The selection stage of `struggling_stores`: the rows of the per-store table whose mean
      monthly sales are at or below the given percentile of all the rows' means. A percentile
      outside 0..100 is rejected, as `Series.quantile` does; an empty table selects nothing. */
  function SelectStruggling(t: seq<StoreVolatility>, thresholdPercentile: real): (res: Result<seq<StoreVolatility>, AnalysisError>)
    ensures res.Failure? <==> !(0.0 <= thresholdPercentile <= 100.0)
    ensures res.Success? && t == [] ==> res.value == []
    ensures res.Success? && t != [] ==> res.value != []
    ensures res.Success? && t != [] ==>
              forall x :: x in res.value <==> x in t && x.avgMonthlySales <= StrugglingThreshold(t, thresholdPercentile)
  {
    if !(0.0 <= thresholdPercentile <= 100.0) then Failure(PercentileOutOfRange(thresholdPercentile))
    else if t == [] then Success([])
    else
      var threshold := StrugglingThreshold(t, thresholdPercentile);
      var i :| 0 <= i < |t| && t[i].avgMonthlySales <= threshold;
      assert t[i] in AtOrBelow(t, threshold);
      Success(AtOrBelow(t, threshold))
  }

  /** `struggling_stores(threshold_percentile)` over the records. */
  function StrugglingStores(rs: seq<SalesRecord>, thresholdPercentile: real): (res: Result<seq<StoreVolatility>, AnalysisError>)
    ensures res.Failure? <==> !(0.0 <= thresholdPercentile <= 100.0)
    ensures res.Success? ==> forall x :: x in res.value ==> x in StoreVolatilityTable(rs)
  {
    SelectStruggling(StoreVolatilityTable(rs), thresholdPercentile)
  }

  /** Raising the percentile never drops a store from the result. */
  lemma StrugglingMonotone(t: seq<StoreVolatility>, p1: real, p2: real)
    requires 0.0 <= p1 <= p2 <= 100.0
    ensures forall x :: x in SelectStruggling(t, p1).value ==> x in SelectStruggling(t, p2).value
  {
    if t != [] {
      QuantileMonotone(AvgMonthlySales(t), p1 / 100.0, p2 / 100.0);
      var th1, th2 := StrugglingThreshold(t, p1), StrugglingThreshold(t, p2);
      assert th1 <= th2;
      assert SelectStruggling(t, p1) == Success(AtOrBelow(t, th1));
      assert SelectStruggling(t, p2) == Success(AtOrBelow(t, th2));
    }
  }

  lemma {:induction false} AtOrBelowAll(t: seq<StoreVolatility>, threshold: real)
    requires forall x :: x in t ==> x.avgMonthlySales <= threshold
    ensures AtOrBelow(t, threshold) == t
  {
    if t != [] {
      assert t == [t[0]] + t[1..];
      AtOrBelowAll(t[1..], threshold);
    }
  }

  /** At the 100th percentile every store is struggling. */
  lemma StrugglingAtHundred(t: seq<StoreVolatility>)
    ensures SelectStruggling(t, 100.0) == Success(t)
  {
    if t != [] {
      var ms := AvgMonthlySales(t);
      QuantileExtremes(ms);
      var th := StrugglingThreshold(t, 100.0);
      assert th == Quantile(ms, 1.0);
      forall x | x in t ensures x.avgMonthlySales <= th {
        var i :| 0 <= i < |t| && t[i] == x;
        assert ms[i] in ms;
      }
      AtOrBelowAll(t, th);
    }
  }

  /** At the 0th percentile exactly the stores with the smallest mean monthly sales are struggling. */
  lemma StrugglingAtZero(t: seq<StoreVolatility>)
    ensures forall x :: x in SelectStruggling(t, 0.0).value <==>
              x in t && forall y :: y in t ==> x.avgMonthlySales <= y.avgMonthlySales
  {
    if t != [] {
      var ms := AvgMonthlySales(t);
      QuantileExtremes(ms);
      var th := StrugglingThreshold(t, 0.0);
      assert th == Quantile(ms, 0.0);
      var k :| 0 <= k < |ms| && ms[k] == th;
      forall x | x in t
        ensures x.avgMonthlySales <= th <==> forall y :: y in t ==> x.avgMonthlySales <= y.avgMonthlySales
      {
        if x.avgMonthlySales <= th {
          forall y | y in t ensures x.avgMonthlySales <= y.avgMonthlySales {
            var j :| 0 <= j < |t| && t[j] == y;
            assert ms[j] in ms;
          }
        } else {
          assert t[k] in t;
        }
      }
    }
  }

  /** Three stores with mean monthly sales 900, 100 and 200. */
  function ExampleStores(): seq<StoreVolatility> {
    [StoreVolatility("S1", 900.0, None), StoreVolatility("S2", 100.0, None), StoreVolatility("S3", 200.0, None)]
  }

  lemma ExampleThresholds()
    ensures StrugglingThreshold(ExampleStores(), 25.0) == 150.0
    ensures StrugglingThreshold(ExampleStores(), 50.0) == 200.0
  {
    var t := ExampleStores();
    assert AvgMonthlySales(t) == [900.0, 100.0, 200.0] by {
      assert t[1..] == [t[1], t[2]] && t[1..][1..] == [t[2]] && t[1..][1..][1..] == [];
    }
    QuantileExample();
    assert 25.0 / 100.0 == 0.25 && 50.0 / 100.0 == 0.5;
  }

  /** The 25th percentile of the means 900, 100 and 200 is 150, so only the store at 100 is
      struggling; at the 50th percentile the threshold is the median 200 and the store at
      200 joins it. */
  lemma StrugglingExample()
    ensures SelectStruggling(ExampleStores(), 25.0) == Success([ExampleStores()[1]])
    ensures SelectStruggling(ExampleStores(), 50.0) == Success([ExampleStores()[1], ExampleStores()[2]])
  {
    var t := ExampleStores();
    ExampleThresholds();
    SelectStrugglingIs(t, 25.0);
    SelectStrugglingIs(t, 50.0);
    ExampleAtOrBelow();
  }

  lemma ExampleAtOrBelow()
    ensures AtOrBelow(ExampleStores(), 150.0) == [ExampleStores()[1]]
    ensures AtOrBelow(ExampleStores(), 200.0) == [ExampleStores()[1], ExampleStores()[2]]
  {
    var t := ExampleStores();
    var last := t[1..][1..];
    assert t[1..] == [t[1], t[2]] && last == [t[2]] && last[1..] == [];
    assert AtOrBelow(last, 150.0) == [];
    assert AtOrBelow(last, 200.0) == [t[2]];
    assert AtOrBelow(t[1..], 150.0) == [t[1]];
    assert AtOrBelow(t[1..], 200.0) == [t[1]] + [t[2]];
  }

  lemma SelectStrugglingIs(t: seq<StoreVolatility>, p: real)
    requires t != [] && 0.0 <= p <= 100.0
    ensures SelectStruggling(t, p) == Success(AtOrBelow(t, StrugglingThreshold(t, p)))
  {
  }
}

=== FILE: strings.dfy ===
/** The order in which categorical labels are sorted: code point by code point,
    a proper prefix before its extensions (Python's string comparison). */
module StringOrder {

  predicate StrLess(a: string, b: string) {
    if |a| == 0 then |b| > 0
    else if |b| == 0 then false
    else if a[0] != b[0] then a[0] < b[0]
    else StrLess(a[1..], b[1..])
  }

  lemma {:induction false} StrLessIrreflexive(a: string)
    ensures !StrLess(a, a)
  {
    if |a| > 0 {
      StrLessIrreflexive(a[1..]);
    }
  }

  lemma {:induction false} StrLessTransitive(a: string, b: string, c: string)
    requires StrLess(a, b) && StrLess(b, c)
    ensures StrLess(a, c)
  {
    if |a| > 0 && |b| > 0 && |c| > 0 && a[0] == b[0] && b[0] == c[0] {
      StrLessTransitive(a[1..], b[1..], c[1..]);
    }
  }

  lemma {:induction false} StrLessTotal(a: string, b: string)
    requires a != b
    ensures StrLess(a, b) || StrLess(b, a)
  {
    if |a| > 0 && |b| > 0 && a[0] == b[0] {
      assert a == [a[0]] + a[1..] && b == [b[0]] + b[1..];
      StrLessTotal(a[1..], b[1..]);
    }
  }

  lemma StrLessAsymmetric(a: string, b: string)
    requires StrLess(a, b)
    ensures !StrLess(b, a)
  {
    if StrLess(b, a) {
      StrLessTransitive(a, b, a);
      StrLessIrreflexive(a);
    }
  }

  /** Strictly increasing in the label order, hence free of repetitions. */
  predicate StrictlySorted(ks: seq<string>) {
    forall i, j :: 0 <= i < j < |ks| ==> StrLess(ks[i], ks[j])
  }

  lemma StrictlySortedDistinct(ks: seq<string>)
    requires StrictlySorted(ks)
    ensures forall i, j :: 0 <= i < |ks| && 0 <= j < |ks| && i != j ==> ks[i] != ks[j]
  {
    forall i, j | 0 <= i < |ks| && 0 <= j < |ks| && i != j
      ensures ks[i] != ks[j]
    {
      if i < j { StrLessIrreflexive(ks[i]); } else { StrLessIrreflexive(ks[j]); }
    }
  }

  /** Adds label k to a strictly sorted list of labels unless it is already there. */
  function InsertLabel(k: string, ks: seq<string>): (r: seq<string>)
    requires StrictlySorted(ks)
    ensures StrictlySorted(r)
    ensures forall x :: x in r <==> x == k || x in ks
  {
    if ks == [] then [k]
    else if k == ks[0] then ks
    else if StrLess(k, ks[0]) then
      assert forall j :: 0 < j < |ks| ==> StrLess(k, ks[j]) by {
        forall j | 0 < j < |ks| ensures StrLess(k, ks[j]) { StrLessTransitive(k, ks[0], ks[j]); }
      }
      [k] + ks
    else
      StrLessTotal(k, ks[0]);
      var rest := InsertLabel(k, ks[1..]);
      assert forall x :: x in ks[1..] ==> StrLess(ks[0], x);
      [ks[0]] + rest
  }
}

=== FILE: tables.dfy ===
/** The per-key summary table that `groupby(key).agg({'sales_amount': ['sum', 'mean'],
    'product_name': 'count'})` builds, one row per observed key in sorted key order. */
module Tables {
  import opened StringOrder
  import opened Grouping
  import opened Statistics
  import opened Records

  datatype GroupSummary = GroupSummary(key: string, totalSales: int, avgSale: real, totalTransactions: nat)

  function TotalSalesOf(row: GroupSummary): int { row.totalSales }

  function TransactionsOf(row: GroupSummary): int { row.totalTransactions }

  /** The summary row of the records whose key is k. */
  function Summarize(rs: seq<SalesRecord>, key: SalesRecord -> string, k: string): (row: GroupSummary)
    requires |Group(rs, key, k)| > 0
    ensures row.key == k && row.totalTransactions >= 1
    ensures row.totalSales == Sum(Values(rs, Masked(key, k, Amount)))
    ensures row.totalTransactions == Sum(Values(rs, Masked(key, k, One)))
  {
    var g := Group(rs, key, k);
    GroupSumIsMaskedSum(rs, key, k, Amount);
    GroupSumIsMaskedSum(rs, key, k, One);
    SumOfOnes(g);
    GroupSummary(k, Sum(Values(g, Amount)), Mean(Values(g, Amount)), |g|)
  }

  /** The `mean` column times the `count` column is the `sum` column. */
  lemma SummaryMean(rs: seq<SalesRecord>, key: SalesRecord -> string, k: string)
    requires |Group(rs, key, k)| > 0
    ensures Summarize(rs, key, k).avgSale * Summarize(rs, key, k).totalTransactions as real
            == Summarize(rs, key, k).totalSales as real
  {
  }

  function SummariesOf(rs: seq<SalesRecord>, key: SalesRecord -> string, ks: seq<string>): (t: seq<GroupSummary>)
    requires AllObserved(rs, key, ks)
    ensures |t| == |ks|
    ensures forall i :: 0 <= i < |ks| ==> t[i] == Summarize(rs, key, ks[i])
  {
    if ks == [] then [] else [Summarize(rs, key, ks[0])] + SummariesOf(rs, key, ks[1..])
  }

  /** The reduced table of the records grouped by key. */
  function Summaries(rs: seq<SalesRecord>, key: SalesRecord -> string): (t: seq<GroupSummary>)
    ensures |t| == |SortedKeys(rs, key)|
    ensures forall i :: 0 <= i < |t| ==> t[i].key == SortedKeys(rs, key)[i] && t[i].totalTransactions >= 1
  {
    SortedKeysObserved(rs, key);
    SummariesOf(rs, key, SortedKeys(rs, key))
  }

  /** The keys of a table's rows, in row order. */
  function KeysOf(t: seq<GroupSummary>): (ks: seq<string>)
    ensures |ks| == |t|
    ensures forall i :: 0 <= i < |t| ==> ks[i] == t[i].key
  {
    if t == [] then [] else [t[0].key] + KeysOf(t[1..])
  }

  lemma {:induction false} SummaryColumns(rs: seq<SalesRecord>, key: SalesRecord -> string, ks: seq<string>)
    requires AllObserved(rs, key, ks)
    ensures Sum(Values(SummariesOf(rs, key, ks), TotalSalesOf)) == GroupTotals(rs, key, ks, Amount)
    ensures Sum(Values(SummariesOf(rs, key, ks), TransactionsOf)) == GroupTotals(rs, key, ks, One)
  {
    if ks != [] {
      assert AllObserved(rs, key, ks[1..]);
      SummaryColumns(rs, key, ks[1..]);
      SumOfOnes(Group(rs, key, ks[0]));
    }
  }

  /** The reduced table has exactly one row per distinct key, in strictly increasing key order,
      each row summarising at least one record. */
  lemma SummariesKeys(rs: seq<SalesRecord>, key: SalesRecord -> string)
    ensures StrictlySorted(KeysOf(Summaries(rs, key)))
    ensures forall i :: 0 <= i < |rs| ==> key(rs[i]) in KeysOf(Summaries(rs, key))
    ensures forall row :: row in Summaries(rs, key) ==>
              row.totalTransactions >= 1 && exists i :: 0 <= i < |rs| && key(rs[i]) == row.key
  {
    var ks := SortedKeys(rs, key);
    var t := Summaries(rs, key);
    assert KeysOf(t) == ks;
    forall row | row in t
      ensures row.totalTransactions >= 1 && exists i :: 0 <= i < |rs| && key(rs[i]) == row.key
    {
      var j :| 0 <= j < |t| && t[j] == row;
      assert ks[j] in ks;
    }
  }

  /** Partition invariant of the reduced table: its totals add up to the overall total and its
      counts to the number of records. */
  lemma SummariesTotals(rs: seq<SalesRecord>, key: SalesRecord -> string)
    ensures Sum(Values(Summaries(rs, key), TotalSalesOf)) == Sum(Values(rs, Amount))
    ensures Sum(Values(Summaries(rs, key), TransactionsOf)) == |rs|
  {
    var ks := SortedKeys(rs, key);
    SortedKeysNoDuplicates(ks);
    SortedKeysObserved(rs, key);
    SummaryColumns(rs, key, ks);
    PartitionTotal(rs, key, ks, Amount);
    PartitionTotal(rs, key, ks, One);
    SumOfOnes(rs);
  }
}

=== FILE: wrappers.dfy ===
/** Optional values and results, standing in for the missing values (NaN, NaT)
    and the raised exceptions of the analyser. */
module Wrappers {

  datatype Option<+T> = None | Some(value: T)

  datatype Result<+R, +E> = Success(value: R) | Failure(error: E)
}
